=== FILE: README.md ===
# Pay-period schedule engine, modelled in Dafny

This project models the pay-period part of a small work-calendar web page
(`script.js`):

- **Pay periods.** Biweekly periods start at a fixed anchor day. Each covers
  14 days, and generation stops after 31 December of the anchor's year. That
  limit is built with `new Date(year, 11, 31)`, which reads the years 0 to 99
  as 1900 to 1999, so an anchor in those years runs on to the end of 1900 + its
  year; the model does the same.
- **Payday.** A period is paid 5 days after its last day.
- **Status parsing.** The page keeps a free-text status per day, such as
  "8 hrs", "10hrs 2ot" or "off". A parser turns each status into regular and
  overtime hours, and a walk over each period's days adds them up for the
  period's payday entry.
- **Category.** The category a day's entry is shown with depends on the words
  in its status.

Modules, one per file:

- `Calendar` (`calendar.dfy`): civil dates in the proleptic Gregorian
  calendar.
  - A day ordinal (`DayNumber`) orders dates the way `<=` orders JavaScript
    `Date` objects.
  - `NextDay` and `AddDays` are `setDate(getDate() + n)` with month and year
    carry.
- `Text` (`text.dfy`): lower-casing, the `\s` and `\d` character classes, and
  substring search (`includes`).
- `StatusParser` (`status_parser.dfy`): `parseHours`.
  - `MatchAt` is a deterministic greedy matcher for `(\d+(\.\d+)?)\s*<mark>`.
    It is proved to agree with a declarative description of the pattern
    (`Accepts`), in both directions.
  - `FirstMatch` is the leftmost match, as `String.prototype.match` returns it.
  - `DecimalValue` is `parseFloat` of the captured group, as an exact decimal.
- `PayPeriods` (`pay_periods.dfy`): `getPayPeriods` and the payday rule.
- `Aggregation` (`aggregation.dfy`): the day walk that totals a period's
  hours, and its properties.
- `Schedule` (`schedule.dfy`): one summary (period, payday, totals) per
  generated period.
- `StatusCategory` (`status_category.dfy`): the priority rule for an entry's
  category.
- `ParserExamples` and `Scenarios` (`parser_examples.dfy`, `scenarios.dfy`):
  worked examples.
  - The anchor of the events callback, 10 August 2025, gives a first period of
    10–23 August 2025 paid on 28 August.
  - Texts with decimals, capitals, a repeated figure and inconsistent figures.
- `Wrappers` (`wrappers.dfy`): `Option`.

The status store is a parameter: `Lookup = Date -> Option<string>`.
A missing key is `None`. The code's `if (status)` ignores both a missing and an
empty status.

Two behaviours of `script.js` that a stricter reading might not expect, and
that the model keeps:

- **Invalid anchor or limit.** An invalid `Date` compares false with every
  date (script.js:62), so `getPayPeriods` returns an empty list. A `Date` is
  invalid when it names no calendar day, and also when it lies outside the
  range a `Date` can hold: -271821-04-20 to 275760-09-13, 100000000 days either
  side of 1970-01-01. For an anchor in the year 275760 the limit, 31 December
  275760, is past that range. `Generate` returns `[]` exactly when the anchor
  is not `Valid`, or when the anchor or its limit lies outside the range.
- **Negative regular hours.** Regular hours are the hours figure minus the
  overtime figure, with no clamping (script.js:88-91), so they can be
  negative. `ParseBoth` and `ParseNegativeRegular` state this: "2hrs 5ot"
  gives regular −3, overtime 5.

Two modelling notes on the patterns:

- **The optional `s`.** The hours pattern ends in `hrs?`. Its optional `s`
  never decides whether or where the pattern matches, nor what the group
  captures. The model therefore uses the mark `hr`.
- **`\s` and `\d`.** `\s` is the ECMAScript white-space and line-terminator
  set, and `\d` is the ASCII digits.

## Model

| member | source | states |
|---|---|---|
| Calendar.NextDay | script.js:174 | the day after a valid date is a valid date whose ordinal is one more, carrying into the next month and year |
| Calendar.AddDays | script.js:63-64 | stepping n days from a valid date gives a valid date whose ordinal is n more |
| Calendar.AddDaysAdd | script.js:70 | stepping n days and then m days is stepping n + m days |
| Calendar.AddDaysWithinMonth | script.js:63-64 | when the month has room, stepping forward only moves the day of the month |
| Calendar.DayNumberInjective | script.js:62 | two valid dates with the same ordinal are the same date, so ordinal order is date order |
| Calendar.ReachedByAddDays | script.js:150-151 | every date on or after d is reached from d by stepping the difference of their ordinals |
| Calendar.OnOrBeforeYearEnd | script.js:60-62 | a date is on or before 31 December of year y exactly when its year is at most y |
| Calendar.DaysToYearEnd | script.js:60 | from any date to 31 December of its year there are 0 to 365 days |
| Text.Lower | script.js:78 | lower-casing keeps the length, maps each character on its own, and leaves no upper-case letter |
| Text.LowerIdempotent | script.js:78 | lower-casing twice is lower-casing once |
| Text.Includes | script.js:160 | `includes` is true exactly when the substring occurs at some position |
| StatusParser.MatchAtSound | script.js:80 | what the greedy reader captures at position i is a match of `(\d+(\.\d+)?)\s*<mark>` from i, with that group |
| StatusParser.MatchAtComplete | script.js:80 | every match of the pattern from position i captures exactly what the greedy reader captures, so backtracking cannot change the group |
| StatusParser.GreedyGroup | script.js:80 | a captured group followed by neither a digit nor a dot ends where the greedy reading of digits, dot and digits ends |
| StatusParser.FirstMatchFromScans | script.js:80 | the scan from position i stops at the first position where the pattern matches, and finds nothing when it matches nowhere from i on |
| StatusParser.FirstMatch | script.js:80-85 | `match` returns the first position where the greedy reader captures, with that capture, and null only when it captures at no position |
| StatusParser.FirstMatchFindsLeftmost | script.js:80-85 | whenever the pattern has a leftmost match, `match` returns its position and group |
| StatusParser.FirstMatchNone | script.js:80-81 | `match` returns null exactly when the pattern matches nowhere in the text |
| StatusParser.FirstMatchLeftmost | script.js:80 | `match` returns the leftmost matching position with its group |
| StatusParser.GreedyHit | script.js:80 | a digit run, optional fraction and blanks followed by the mark stop the search at its start with the group read |
| StatusParser.GreedyMiss | script.js:80 | a digit run, optional fraction and blanks not followed by the mark move the search one position on |
| StatusParser.SkipNonDigits | script.js:80 | positions that do not hold a digit never start a match |
| StatusParser.DecimalValue | script.js:82-89 | `parseFloat` of a captured group is never negative, and a group without a dot reads as the integer its digits spell |
| StatusParser.DecimalOfFraction | script.js:82-89 | `parseFloat` of a group a.b is the integer a spells plus the integer b spells divided by 10 for every digit of b |
| StatusParser.ParseHours | script.js:75-94 | overtime is never negative; when the overtime pattern has a leftmost match, overtime is its figure; when the hours pattern has one, regular plus overtime is its figure, so regular time is the hours figure less overtime |
| StatusParser.ParseNeither | script.js:76-77 | with neither pattern matching, both figures are zero |
| StatusParser.ParseHoursOnly | script.js:85-87 | with only the hours pattern matching, its leftmost figure is all regular time and overtime is zero |
| StatusParser.ParseOvertimeOnly | script.js:80-83 | with only the overtime pattern matching, its leftmost figure is overtime and regular time is zero |
| StatusParser.ParseBoth | script.js:88-91 | with both matching, regular time is the hours figure less the overtime figure, not clamped at zero |
| StatusParser.ParseIgnoresCase | script.js:78 | parsing a text gives the same hours as parsing its lower-cased form |
| PayPeriods.PeriodAt | script.js:63-69 | a period starts on its given day and ends 13 days later |
| PayPeriods.PeriodsFrom | script.js:58-72 | the loop emits periods exactly while the start is on or before the limit; period k starts 14k days after the first and ends 13 days after its own start; the next start passes the limit |
| PayPeriods.PeriodsFromCount | script.js:62-71 | the loop emits (days to the limit) div 14 + 1 periods, or none when the first start is past the limit |
| Calendar.ConstructorYear | script.js:60 | the year `new Date(y, 11, 31)` builds is y itself except for the years 0 to 99, which it reads as later years |
| PayPeriods.Limit | script.js:60 | the loop's limit is a calendar day on or after the anchor, in the year the `Date` constructor reads the anchor's year as |
| PayPeriods.LimitInOwnYear | script.js:60 | outside the years 0 to 99 the limit is 31 December of the anchor's own year |
| Calendar.DayOrderByFields | script.js:62 | comparing two dates as `<=` does agrees with comparing their year, month and day in dictionary order |
| PayPeriods.Generate | script.js:57-73 | no periods exactly when the anchor is not a calendar day, or the anchor or its limit is a day a `Date` cannot hold; otherwise at least one, since the anchor lies on or before the limit |
| PayPeriods.EmitsInsideTimeRange | script.js:59-62 | every calendar day from year -271820 to year 275759 emits periods, because both it and its limit are days a `Date` can hold |
| PayPeriods.LastTimeYearEmitsNothing | script.js:60-62 | an anchor in the year 275760 gives no periods, because its limit is past the last day a `Date` can hold |
| PayPeriods.GenerateInOwnYear | script.js:58-72 | for an anchor from year 100 to year 275759 the loop runs from the anchor to 31 December of its own year |
| PayPeriods.GenerateShape | script.js:57-73 | for an anchor that emits periods, the first period starts on the anchor, period k starts 14k days after it, and each period ends 13 days after its start |
| PayPeriods.GenerateTiles | script.js:64-70 | each period starts 14 days after the previous one, on the day after the previous one ends: no gaps, no overlaps |
| PayPeriods.GenerateStaysInYear | script.js:60-62 | every period starts between the anchor's year and the limit's year, and the start after the last one falls after the limit's year; outside the years 0 to 99 every period starts in the anchor's year |
| PayPeriods.GenerateCoversOnce | script.js:62-70 | a day on or after the anchor lies in period k exactly when k is its number of whole 14-day steps from the anchor |
| PayPeriods.GenerateCount | script.js:60-70 | a calendar day from year -271820 to year 275759 gives at least one period; any calendar day gives at most 27 outside the years 0 to 99, and more than 49000 for an anchor in them, whose limit lies 1900 years on |
| PayPeriods.Payday | script.js:144-145 | a period's payday is a valid date 5 days after its end |
| PayPeriods.PaydayInNextPeriod | script.js:144-145 | a payday falls 18 days after its period's start, inside the 14 days after the period |
| Aggregation.TotalHours | script.js:147-175 | the day loop adds each day's hours from the period's start through its end, in order |
| Aggregation.DayHours | script.js:152-157 | a day whose status is missing or empty adds nothing, and no day adds negative overtime |
| Aggregation.PeriodHours | script.js:147-157 | a period's totals are the sum of the parsed hours of its days' present, non-empty statuses, in day order |
| Aggregation.SumPermuted | script.js:156-157 | the totals of a set of days do not depend on the order they are added in |
| Aggregation.PeriodHoursAnyOrder | script.js:150-157 | visiting a period's days in any order gives the same totals |
| Aggregation.AbsentDaysAddNothing | script.js:153-157 | days with a missing or empty status add nothing: the totals are the parsed hours of the present statuses |
| Aggregation.PeriodDaysAreTheRange | script.js:150-151 | the walk visits exactly the days from start to end, each once |
| Aggregation.GeneratedPeriodSpan | script.js:150-151 | the walk over a generated period visits 14 days |
| Schedule.Build | script.js:132-182 | one summary per generated period, in order, each with payday 5 days after the end and the parsed hours of the period's days that carry a status |
| StatusCategory.CategoryOf | script.js:159-166 | "ot" anywhere (any case) means overtime, else "off" a day off, else "canal" a canal shift, else an 8-hour day; each category holds exactly under its condition |
| ParserExamples.DecimalOneAndAHalf | script.js:82 | `parseFloat("1.5")` is 1.5 |
| ParserExamples.ParseEightHours | script.js:85-87 | "8 hrs" gives 8 regular hours and no overtime |
| ParserExamples.ParseTwoOvertime | script.js:78-83 | "2 OT" gives 2 overtime hours: matching ignores case |
| ParserExamples.ParseTotalAndOvertime | script.js:88-91 | "10hrs 2ot" gives 8 regular and 2 overtime hours |
| ParserExamples.ParseNoFigures | script.js:76-77 | "" and "off" give no hours |
| ParserExamples.ParseNegativeRegular | script.js:88-91 | "2hrs 5ot" gives −3 regular and 5 overtime hours |
| ParserExamples.ParseLeftmostOnly | script.js:85-87 | "8hrs 4hrs" counts only the leftmost figure, 8 |
| ParserExamples.ParseDecimalOvertime | script.js:80-83 | "1.5 ot" gives 1.5 overtime hours |
| Scenarios.LiteralAnchorSchedule | script.js:112 | the anchor 2025-08-10 gives 11 periods; the first runs 2025-08-10 to 2025-08-23 and is paid 2025-08-28; the last runs 2025-12-28 to 2026-01-10 |
| Scenarios.YearEndAnchor | script.js:57-73 | the anchor 2025-12-20 gives the single period 2025-12-20 to 2026-01-02, paid 2026-01-07 |
| Scenarios.FirstPeriodTotals | script.js:147-175 | with "8 hrs" on 2025-08-10 and "10hrs 2ot" on 2025-08-15, the first period totals 16 regular and 2 overtime hours |

## Left out

- The modal dialog, form handling and day-cell click handler (script.js:2-55, 188-191) are user-interface code with no effect on the schedule.
- The FullCalendar configuration, rendering and `eventContent` (script.js:96-110, 185-187, 218-219) are display code.
- The public-holiday fetch and its failure path (script.js:113-130), and the quote fetch (script.js:221-234), are network I/O. When the holiday fetch fails, the `return` at script.js:129 runs before `payPeriods.forEach` (script.js:132), so no START PAY or END PAY marker, payday or total is reported for any period; the model describes only the successful path.
- The past-date marking and the header animation (script.js:193-215) are display code that reads the clock.
- Calendar entries themselves are not modelled: the "START PAY" / "END PAY" markers, the per-day status entries, and the payday title text with its `MM/DD` formatting (script.js:133-142, 168-172, 177-181). The model keeps the data the pay entries carry: period, payday and totals (`Schedule.Build`). The category rule for a day's entry (script.js:159-166) is modelled on its own, as `StatusCategory.CategoryOf` over one status text; it is not applied to the days of a period. The source computes it only for present, non-empty statuses (script.js:154), while `CategoryOf("")` gives the 8-hour category.
- Day keys are dates, not the `YYYY-MM-DD` strings of `toISOString().slice(0, 10)`. The string form misbehaves only for years outside 0..9999, which the anchor never reaches.
- Time zones and daylight saving are not modelled. The model uses civil dates throughout, which is what `script.js` computes when the browser runs in UTC. Elsewhere the anchor string and `new Date(period.start)` give UTC midnight, while `setDate`, `getFullYear` and `new Date(y, 11, 31)` work in local time, with these consequences:
  - East of UTC, a period whose ISO start is 31 December begins after local midnight of that day, so `currentDate <= endDate` (script.js:62) is false and the period is not emitted. West of UTC, an anchor of 1 January is still 31 December locally, so the limit is the previous year's end and no period is emitted.
  - When the clocks go back inside a period, the day walk moves from 00:00Z to 01:00Z. On the period's last day `dayIterator <= new Date(period.end)` (script.js:151) is then false, so that day's hours are dropped. For the literal anchor this drops 2025-11-15 in US zones and 2025-11-01 in Central European ones.
  - When the clocks go forward inside a period, the walk moves to 23:00Z of the day before. One day key is then read twice, the period's last day is not read, and later period starts and ends taken from `toISOString` fall one day early.
- Calendar.AddDays: has no ceiling on dates, while a JavaScript `Date` ends at 275760-09-13 (and begins at -271821-04-20). `Generate` checks the anchor and its limit against this range. Stepping from there stays inside it: every start lies between the anchor and a limit no later than 275759-12-31, ends lie 13 days later, and paydays 5 days after that.
- StatusParser.DecimalValue: computes `parseFloat` of a group as an exact rational, so binary floating-point rounding is not modelled.
- Aggregation.TotalHours: adds exact rationals, whereas the source accumulates in floating point.
- Text.Lower: lower-cases ASCII letters only. No other character that `toLowerCase` changes can become a digit, a dot, white space or a letter of "ot", "hr", "off" or "canal", so the parsed hours and categories do not change.
- A failing status store is not modelled: the lookup is a total function, and a store error cannot propagate from it.

=== FILE: aggregation.dfy ===
/**
 Per-period hour totals: the walk over every day of a period, looking up each
 day's status and adding up the parsed hours of the days whose status is
 present and non-empty.
 */
module Aggregation {
  import opened Wrappers
  import opened Calendar
  import opened StatusParser
  import opened PayPeriods

  /** The status store, read by day key; None for a key that is not set */
  type Lookup = Date -> Option<string>

  const Zero: Hours := Hours(0.0, 0.0)

  function Plus(a: Hours, b: Hours): Hours {
    Hours(a.regular + b.regular, a.overtime + b.overtime)
  }

  /** The running total of a sequence of hour pairs, added left to right */
  function Sum(hs: seq<Hours>): Hours {
    if hs == [] then Zero else Plus(Sum(hs[..|hs| - 1]), hs[|hs| - 1])
  }

  /** What one day adds: `if (status)` rejects both a missing and an empty status */
  function DayHours(lookup: Lookup, d: Date): (h: Hours)
    ensures lookup(d).None? || lookup(d) == Some("") ==> h == Zero
    ensures h.overtime >= 0.0
  {
    match lookup(d)
    case Some(status) => if status != "" then ParseHours(status) else Zero
    case None => Zero
  }

  /** Each day's hours, in walk order */
  function HoursOf(lookup: Lookup, days: seq<Date>): (hs: seq<Hours>)
    ensures |hs| == |days|
    ensures forall k :: 0 <= k < |days| ==> hs[k] == DayHours(lookup, days[k])
  {
    MapHours(d => DayHours(lookup, d), days)
  }

  /** The hours of each element, in order */
  function MapHours<T>(f: T -> Hours, xs: seq<T>): (hs: seq<Hours>)
    ensures |hs| == |xs|
    ensures forall k :: 0 <= k < |xs| ==> hs[k] == f(xs[k])
  {
    seq(|xs|, k requires 0 <= k < |xs| => f(xs[k]))
  }

  /** The n consecutive days starting at d */
  function DaysFrom(d: Date, n: nat): (days: seq<Date>)
    requires Valid(d)
    ensures |days| == n
    ensures forall k :: 0 <= k < n ==> days[k] == AddDays(d, k)
  {
    seq(n, k requires 0 <= k < n => AddDays(d, k))
  }

  /** How many days the walk from start to end visits */
  function Span(p: Period): nat
    requires Valid(p.start) && Valid(p.end)
  {
    if DayNumber(p.start) <= DayNumber(p.end) then DayNumber(p.end) - DayNumber(p.start) + 1 else 0
  }

  /** The days of a period, start to end inclusive */
  function PeriodDays(p: Period): seq<Date>
    requires Valid(p.start) && Valid(p.end)
  {
    DaysFrom(p.start, Span(p))
  }

  /** The totals a period's payday reports */
  function PeriodHours(lookup: Lookup, p: Period): (h: Hours)
    requires Valid(p.start) && Valid(p.end)
    ensures h == Sum(ParsedAll(PresentStatuses(lookup, PeriodDays(p))))
  {
    AbsentDaysAddNothing(lookup, PeriodDays(p));
    Sum(HoursOf(lookup, PeriodDays(p)))
  }

  /** The day loop of the events callback: walk from the period's start while the
      day is on or before its end, adding each day's hours */
  method TotalHours(lookup: Lookup, p: Period) returns (total: Hours)
    requires Valid(p.start) && Valid(p.end)
    ensures total == Sum(HoursOf(lookup, DaysFrom(p.start, Span(p))))
  {
    total := Zero;
    var day := p.start;
    var n: nat := 0;
    while DayNumber(day) <= DayNumber(p.end)
      invariant Valid(day)
      invariant day == AddDays(p.start, n)
      invariant n <= Span(p)
      invariant n < Span(p) <==> DayNumber(day) <= DayNumber(p.end)
      invariant total == Sum(HoursOf(lookup, DaysFrom(p.start, n)))
      decreases DayNumber(p.end) - DayNumber(day)
    {
      WalkStep(lookup, p.start, n);
      NextWalkDay(p, n, day);
      total := Plus(total, DayHours(lookup, day));
      day := NextDay(day);
      n := n + 1;
    }
  }

  /** One more day of the walk adds that day's hours to the running total */
  lemma WalkStep(lookup: Lookup, start: Date, n: nat)
    requires Valid(start)
    ensures Sum(HoursOf(lookup, DaysFrom(start, n + 1)))
         == Plus(Sum(HoursOf(lookup, DaysFrom(start, n))), DayHours(lookup, AddDays(start, n)))
  {
    var hs := HoursOf(lookup, DaysFrom(start, n + 1));
    assert hs[..n] == HoursOf(lookup, DaysFrom(start, n));
  }

  /** The day after a walk day on or before the period's end is the next walk day */
  lemma NextWalkDay(p: Period, n: nat, day: Date)
    requires Valid(p.start) && Valid(p.end)
    requires day == AddDays(p.start, n) && DayNumber(day) <= DayNumber(p.end)
    ensures NextDay(day) == AddDays(p.start, n + 1)
    ensures n + 1 <= Span(p)
    ensures n + 1 < Span(p) <==> DayNumber(NextDay(day)) <= DayNumber(p.end)
  {
    AddDaysAdd(p.start, n, 1);
  }

  /** Totals add up over concatenation */
  lemma {:induction false} SumAppend(a: seq<Hours>, b: seq<Hours>)
    ensures Sum(a + b) == Plus(Sum(a), Sum(b))
    decreases |b|
  {
    if b == [] {
      assert a + b == a;
    } else {
      var b' := b[..|b| - 1];
      assert (a + b)[..|a + b| - 1] == a + b';
      SumAppend(a, b');
    }
  }

  /** Removing the day at index i */
  function Without(days: seq<Date>, i: nat): (r: seq<Date>)
    requires i < |days|
    ensures multiset(r) == multiset(days) - multiset{days[i]}
  {
    assert days == days[..i] + [days[i]] + days[i + 1..];
    days[..i] + days[i + 1..]
  }

  lemma MapHoursAppend<T>(f: T -> Hours, a: seq<T>, b: seq<T>)
    ensures MapHours(f, a + b) == MapHours(f, a) + MapHours(f, b)
  {
  }

  /** Taking one day out of a walk takes its hours out of the totals */
  lemma SumWithout(f: Date -> Hours, days: seq<Date>, i: nat)
    requires i < |days|
    ensures Sum(MapHours(f, days)) == Plus(Sum(MapHours(f, Without(days, i))), f(days[i]))
  {
    var left, right := MapHours(f, days[..i]), MapHours(f, days[i + 1..]);
    var h := f(days[i]);
    MapAround(f, days, i);
    SumAppend(left + [h], right);
    SumAppend(left, right);
    SumSnoc(left, h);
  }

  /** The hours of a walk, split around the day at index i */
  lemma MapAround(f: Date -> Hours, days: seq<Date>, i: nat)
    requires i < |days|
    ensures MapHours(f, days) == MapHours(f, days[..i]) + [f(days[i])] + MapHours(f, days[i + 1..])
    ensures MapHours(f, Without(days, i)) == MapHours(f, days[..i]) + MapHours(f, days[i + 1..])
  {
    var a, b := days[..i], days[i + 1..];
    assert days == a + [days[i]] + b;
    assert Without(days, i) == a + b;
    MapHoursAppend(f, a + [days[i]], b);
    MapHoursAppend(f, a, [days[i]]);
    MapHoursAppend(f, a, b);
    assert MapHours(f, [days[i]]) == [f(days[i])];
  }

  lemma SumSnoc(hs: seq<Hours>, h: Hours)
    ensures Sum(hs + [h]) == Plus(Sum(hs), h)
  {
    assert (hs + [h])[..|hs|] == hs;
  }

  /** Adding up per-day hours does not depend on the order of the days */
  lemma {:induction false} SumPermuted(f: Date -> Hours, a: seq<Date>, b: seq<Date>)
    requires multiset(a) == multiset(b)
    ensures Sum(MapHours(f, a)) == Sum(MapHours(f, b))
    decreases |a|
  {
    if a != [] {
      var last := a[|a| - 1];
      var a' := a[..|a| - 1];
      var i := MatchLast(a, b);
      SumPermuted(f, a', Without(b, i));
      SumWithout(f, b, i);
      assert a == a' + [last];
      MapHoursAppend(f, a', [last]);
      SumSnoc(MapHours(f, a'), f(last));
    }
  }

  /** Where the last day of a walk sits in a reordering of it, and what is left on both sides */
  lemma MatchLast(a: seq<Date>, b: seq<Date>) returns (i: nat)
    requires a != [] && multiset(a) == multiset(b)
    ensures i < |b| && b[i] == a[|a| - 1]
    ensures multiset(a[..|a| - 1]) == multiset(Without(b, i))
  {
    var last := a[|a| - 1];
    assert a == a[..|a| - 1] + [last];
    assert last in multiset(b);
    i :| 0 <= i < |b| && b[i] == last;
  }

  /** The order in which a period's days are visited does not change its totals */
  lemma PeriodHoursAnyOrder(lookup: Lookup, p: Period, days: seq<Date>)
    requires Valid(p.start) && Valid(p.end)
    requires multiset(days) == multiset(PeriodDays(p))
    ensures Sum(HoursOf(lookup, days)) == PeriodHours(lookup, p)
  {
    SumPermuted(d => DayHours(lookup, d), days, PeriodDays(p));
  }

  /** The statuses of the given days that are present and non-empty, in order */
  function PresentStatuses(lookup: Lookup, days: seq<Date>): (ss: seq<string>)
    ensures forall k :: 0 <= k < |ss| ==> ss[k] != ""
    ensures |ss| <= |days|
  {
    if days == [] then []
    else
      var rest := PresentStatuses(lookup, days[..|days| - 1]);
      match lookup(days[|days| - 1])
      case Some(status) => if status != "" then rest + [status] else rest
      case None => rest
  }

  /** The parsed hours of each status, in order */
  function ParsedAll(ss: seq<string>): (hs: seq<Hours>)
    ensures |hs| == |ss|
    ensures forall k :: 0 <= k < |ss| ==> hs[k] == ParseHours(ss[k])
  {
    MapHours(ParseHours, ss)
  }

  /** A day with no status, or an empty one, contributes nothing: the totals are the
      parsed hours of the present statuses alone */
  lemma {:induction false} AbsentDaysAddNothing(lookup: Lookup, days: seq<Date>)
    ensures Sum(HoursOf(lookup, days)) == Sum(ParsedAll(PresentStatuses(lookup, days)))
    decreases |days|
  {
    if days != [] {
      var days' := days[..|days| - 1];
      AbsentDaysAddNothing(lookup, days');
      assert HoursOf(lookup, days)[..|days| - 1] == HoursOf(lookup, days');
      LastDay(lookup, days);
    }
  }

  /** The last day of a walk adds its parsed status when it has one, and nothing otherwise */
  lemma LastDay(lookup: Lookup, days: seq<Date>)
    requires days != []
    ensures Sum(ParsedAll(PresentStatuses(lookup, days)))
         == Plus(Sum(ParsedAll(PresentStatuses(lookup, days[..|days| - 1]))), DayHours(lookup, days[|days| - 1]))
  {
    var d := days[|days| - 1];
    LastStatus(ParseHours, lookup, days);
    if lookup(d).Some? && lookup(d).value != "" {
      assert DayHours(lookup, d) == ParseHours(lookup(d).value);
    } else {
      assert DayHours(lookup, d) == Zero;
    }
  }

  lemma LastStatus(g: string -> Hours, lookup: Lookup, days: seq<Date>)
    requires days != []
    ensures var d := days[|days| - 1];
            Sum(MapHours(g, PresentStatuses(lookup, days)))
            == Plus(Sum(MapHours(g, PresentStatuses(lookup, days[..|days| - 1]))),
                    if lookup(d).Some? && lookup(d).value != "" then g(lookup(d).value) else Zero)
  {
    var rest := PresentStatuses(lookup, days[..|days| - 1]);
    var d := days[|days| - 1];
    if lookup(d).Some? && lookup(d).value != "" {
      var status := lookup(d).value;
      assert PresentStatuses(lookup, days) == rest + [status];
      MapHoursAppend(g, rest, [status]);
      SumSnoc(MapHours(g, rest), g(status));
    } else {
      assert PresentStatuses(lookup, days) == rest;
    }
  }

  /** The walk visits exactly the days from start to end, each once */
  lemma PeriodDaysAreTheRange(p: Period, d: Date)
    requires Valid(p.start) && Valid(p.end) && Valid(d)
    ensures d in PeriodDays(p) <==> DayNumber(p.start) <= DayNumber(d) <= DayNumber(p.end)
    ensures forall k, k' :: 0 <= k < k' < |PeriodDays(p)| ==> PeriodDays(p)[k] != PeriodDays(p)[k']
  {
    if DayNumber(p.start) <= DayNumber(d) <= DayNumber(p.end) {
      ReachedByAddDays(p.start, d);
      assert PeriodDays(p)[DayNumber(d) - DayNumber(p.start)] == d;
    }
  }

  /** A generated period's walk visits 14 days */
  lemma GeneratedPeriodSpan(anchor: Date, k: nat)
    requires k < |Generate(anchor)|
    ensures Valid(Generate(anchor)[k].start) && Valid(Generate(anchor)[k].end)
    ensures Span(Generate(anchor)[k]) == PeriodLength
  {
  }
}

=== FILE: calendar.dfy ===
/**
 Calendar days of the proleptic Gregorian calendar, as the JavaScript `Date`
 objects of the schedule use them: a civil date, its successor, n-day steps
 (`setDate(getDate() + n)`), and a day ordinal whose order is the order in
 which `<=` compares two dates.
 */
module Calendar {

  /** A civil date; months are 1..12 (JavaScript's month index plus one) */
  datatype Date = Date(year: int, month: int, day: int)

  predicate IsLeapYear(y: int) {
    y % 4 == 0 && (y % 100 != 0 || y % 400 == 0)
  }

  function DaysInMonth(y: int, m: int): (n: int)
    requires 1 <= m <= 12
    ensures 28 <= n <= 31
    ensures n == 29 <==> m == 2 && IsLeapYear(y)
  {
    if m == 2 then (if IsLeapYear(y) then 29 else 28)
    else if m == 4 || m == 6 || m == 9 || m == 11 then 30
    else 31
  }

  /** A day that exists in the calendar */
  predicate Valid(d: Date) {
    1 <= d.month <= 12 && 1 <= d.day <= DaysInMonth(d.year, d.month)
  }

  function YearLength(y: int): int {
    if IsLeapYear(y) then 366 else 365
  }

  /** Number of days of year y that lie before the first of month m */
  function DaysBeforeMonth(y: int, m: int): int
    requires 1 <= m <= 13
  {
    if m == 1 then 0 else DaysBeforeMonth(y, m - 1) + DaysInMonth(y, m - 1)
  }

  /** Number of days from 1 January of year 1 to 1 January of year y (negative before year 1) */
  function DaysBeforeYear(y: int): int
    decreases if y >= 1 then y - 1 else 1 - y
  {
    if y == 1 then 0
    else if y > 1 then DaysBeforeYear(y - 1) + YearLength(y - 1)
    else DaysBeforeYear(y + 1) - YearLength(y)
  }

  /** The ordinal of a day: 0 for 1 January of year 1 */
  function DayNumber(d: Date): int
    requires Valid(d)
  {
    DaysBeforeYear(d.year) + DaysBeforeMonth(d.year, d.month) + d.day - 1
  }

  /** Where each month starts within its year, and that the twelve months fill the year */
  lemma MonthsFillYear(y: int)
    ensures var feb := DaysInMonth(y, 2);
            && DaysBeforeMonth(y, 2) == 31
            && DaysBeforeMonth(y, 3) == 31 + feb
            && DaysBeforeMonth(y, 4) == 62 + feb
            && DaysBeforeMonth(y, 5) == 92 + feb
            && DaysBeforeMonth(y, 6) == 123 + feb
            && DaysBeforeMonth(y, 7) == 153 + feb
            && DaysBeforeMonth(y, 8) == 184 + feb
            && DaysBeforeMonth(y, 9) == 215 + feb
            && DaysBeforeMonth(y, 10) == 245 + feb
            && DaysBeforeMonth(y, 11) == 276 + feb
            && DaysBeforeMonth(y, 12) == 306 + feb
    ensures DaysBeforeMonth(y, 13) == YearLength(y)
  {
  }

  lemma {:induction false} DaysBeforeMonthGrows(y: int, m: int, m': int)
    requires 1 <= m <= m' <= 13
    ensures DaysBeforeMonth(y, m) + (m' - m) * 28 <= DaysBeforeMonth(y, m')
    decreases m' - m
  {
    if m < m' {
      DaysBeforeMonthGrows(y, m, m' - 1);
    }
  }

  lemma YearStep(y: int)
    ensures DaysBeforeYear(y + 1) == DaysBeforeYear(y) + YearLength(y)
  {
  }

  lemma {:induction false} DaysBeforeYearGrows(y: int, y': int)
    requires y <= y'
    ensures DaysBeforeYear(y) + (y' - y) * 365 <= DaysBeforeYear(y')
    decreases y' - y
  {
    if y < y' {
      DaysBeforeYearGrows(y, y' - 1);
      YearStep(y' - 1);
    }
  }

  /** A day's ordinal lies within its own year's block of ordinals */
  lemma DayNumberWithinYear(d: Date)
    requires Valid(d)
    ensures DaysBeforeYear(d.year) <= DayNumber(d) < DaysBeforeYear(d.year + 1)
  {
    DaysBeforeMonthGrows(d.year, 1, d.month);
    DaysBeforeMonthGrows(d.year, d.month + 1, 13);
    MonthsFillYear(d.year);
    YearStep(d.year);
  }

  /** The day after d: `setDate(getDate() + 1)` with month and year carry */
  function NextDay(d: Date): (r: Date)
    requires Valid(d)
    ensures Valid(r)
    ensures DayNumber(r) == DayNumber(d) + 1
  {
    if d.day < DaysInMonth(d.year, d.month) then Date(d.year, d.month, d.day + 1)
    else if d.month < 12 then
      MonthCarry(d.year, d.month);
      Date(d.year, d.month + 1, 1)
    else
      YearCarry(d.year);
      Date(d.year + 1, 1, 1)
  }

  /** The first of a month follows the last day of the month before */
  lemma MonthCarry(y: int, m: int)
    requires 1 <= m < 12
    ensures DayNumber(Date(y, m + 1, 1)) == DayNumber(Date(y, m, DaysInMonth(y, m))) + 1
  {
    assert DaysBeforeMonth(y, m + 1) == DaysBeforeMonth(y, m) + DaysInMonth(y, m);
  }

  /** 1 January follows 31 December of the year before */
  lemma YearCarry(y: int)
    ensures DayNumber(Date(y + 1, 1, 1)) == DayNumber(Date(y, 12, 31)) + 1
  {
    MonthsFillYear(y);
    YearStep(y);
  }

  /** The day n days after d */
  function AddDays(d: Date, n: nat): (r: Date)
    requires Valid(d)
    ensures Valid(r)
    ensures DayNumber(r) == DayNumber(d) + n
    decreases n
  {
    if n == 0 then d else AddDays(NextDay(d), n - 1)
  }

  /** Two calendar days with the same ordinal are the same day */
  lemma DayNumberInjective(a: Date, b: Date)
    requires Valid(a) && Valid(b)
    requires DayNumber(a) == DayNumber(b)
    ensures a == b
  {
    SameOrdinalSameYear(a, b);
    if a.month < b.month {
      EarlierMonthEarlierDay(a, b);
    } else if b.month < a.month {
      EarlierMonthEarlierDay(b, a);
    }
  }

  /** Within one year, every day of an earlier month has a smaller ordinal */
  lemma EarlierMonthEarlierDay(a: Date, b: Date)
    requires Valid(a) && Valid(b)
    requires a.year == b.year && a.month < b.month
    ensures DayNumber(a) < DayNumber(b)
  {
    var y := a.year;
    DaysBeforeMonthGrows(y, a.month + 1, b.month);
    assert DaysBeforeMonth(y, a.month + 1) == DaysBeforeMonth(y, a.month) + DaysInMonth(y, a.month);
  }

  lemma SameOrdinalSameYear(a: Date, b: Date)
    requires Valid(a) && Valid(b)
    requires DayNumber(a) == DayNumber(b)
    ensures a.year == b.year
  {
    DayNumberWithinYear(a);
    DayNumberWithinYear(b);
    if a.year < b.year {
      DaysBeforeYearGrows(a.year + 1, b.year);
    } else if b.year < a.year {
      DaysBeforeYearGrows(b.year + 1, a.year);
    }
  }

  /** a falls on or before b when read as (year, month, day) in dictionary order */
  predicate OnOrBeforeByFields(a: Date, b: Date) {
    || a.year < b.year
    || (a.year == b.year && (a.month < b.month || (a.month == b.month && a.day <= b.day)))
  }

  /** Comparing ordinals is comparing the fields in dictionary order */
  lemma DayOrderByFields(a: Date, b: Date)
    requires Valid(a) && Valid(b)
    ensures DayNumber(a) <= DayNumber(b) <==> OnOrBeforeByFields(a, b)
  {
    if a.year < b.year {
      DayNumberWithinYear(a);
      DayNumberWithinYear(b);
      DaysBeforeYearGrows(a.year + 1, b.year);
    } else if b.year < a.year {
      DayNumberWithinYear(a);
      DayNumberWithinYear(b);
      DaysBeforeYearGrows(b.year + 1, a.year);
    } else if a.month < b.month {
      EarlierMonthEarlierDay(a, b);
    } else if b.month < a.month {
      EarlierMonthEarlierDay(b, a);
    }
  }

  /** The first and the last day a JavaScript `Date` can hold: its time value lies
      within 8.64e15 ms, that is 100000000 days, of 1970-01-01 (section 21.4.1.1 of
      ECMA-262); outside them a `Date` is invalid and compares false with every date */
  const FirstTimeDay: Date := Date(-271821, 4, 20)
  const LastTimeDay: Date := Date(275760, 9, 13)

  /** d is a day a JavaScript `Date` can hold */
  predicate InTimeRange(d: Date) {
    OnOrBeforeByFields(FirstTimeDay, d) && OnOrBeforeByFields(d, LastTimeDay)
  }

  /** Each day is reached from any earlier day by stepping forward the difference of their ordinals */
  lemma ReachedByAddDays(d: Date, e: Date)
    requires Valid(d) && Valid(e)
    requires DayNumber(d) <= DayNumber(e)
    ensures AddDays(d, DayNumber(e) - DayNumber(d)) == e
  {
    DayNumberInjective(AddDays(d, DayNumber(e) - DayNumber(d)), e);
  }

  /** Stepping n days then m days is stepping n + m days */
  lemma AddDaysAdd(d: Date, n: nat, m: nat)
    requires Valid(d)
    ensures AddDays(AddDays(d, n), m) == AddDays(d, n + m)
  {
    DayNumberInjective(AddDays(AddDays(d, n), m), AddDays(d, n + m));
  }

  /** Inside one month, stepping forward only moves the day of the month */
  lemma {:induction false} AddDaysWithinMonth(d: Date, n: nat)
    requires Valid(d)
    requires d.day + n <= DaysInMonth(d.year, d.month)
    ensures AddDays(d, n) == Date(d.year, d.month, d.day + n)
    decreases n
  {
    if n > 0 {
      AddDaysWithinMonth(NextDay(d), n - 1);
    }
  }

  /** 31 December of year y */
  function YearEnd(y: int): (r: Date)
    ensures Valid(r) && r.year == y
  {
    Date(y, 12, 31)
  }

  /** The year that `new Date(y, m, d)` builds for a year argument y: MakeFullYear
      (section 21.4.2.1 of ECMA-262) reads the years 0 to 99 as 1900 to 1999 */
  function ConstructorYear(y: int): (r: int)
    ensures r >= y
    ensures r == y <==> !(0 <= y <= 99)
  {
    if 0 <= y <= 99 then 1900 + y else y
  }

  /** A day is on or before 31 December of year y exactly when its year is at most y */
  lemma OnOrBeforeYearEnd(d: Date, y: int)
    requires Valid(d)
    ensures DayNumber(d) <= DayNumber(YearEnd(y)) <==> d.year <= y
  {
    DayNumberWithinYear(d);
    DayNumberWithinYear(YearEnd(y));
    MonthsFillYear(y);
    YearStep(y);
    if d.year < y {
      DaysBeforeYearGrows(d.year + 1, y);
    } else if d.year > y {
      DaysBeforeYearGrows(y + 1, d.year);
    }
  }

  /** At most 365 days separate a day from the last day of its year */
  lemma DaysToYearEnd(d: Date)
    requires Valid(d)
    ensures 0 <= DayNumber(YearEnd(d.year)) - DayNumber(d) <= 365
  {
    DayNumberWithinYear(d);
    MonthsFillYear(d.year);
    YearStep(d.year);
  }
}

=== FILE: parser_examples.dfy ===
/**
 Worked examples of the status-text parser: the texts it is meant for, upper
 case, decimals, a repeated figure and inconsistent figures. Each example
 names its text through a parameter fixed by the precondition, and the search
 is followed one step per lemma: a figure found, a figure rejected, or a
 stretch without digits skipped.
 */
module ParserExamples {
  import opened Wrappers
  import opened Text
  import opened StatusParser

  lemma DecimalTwo() ensures DecimalValue("2") == 2.0 {}
  lemma DecimalFive() ensures DecimalValue("5") == 5.0 {}
  lemma DecimalEight() ensures DecimalValue("8") == 8.0 {}
  lemma DecimalTen() ensures DecimalValue("10") == 10.0 {}

  lemma DecimalOneAndAHalf()
    ensures DecimalValue("1.5") == 1.5
  {
    assert DotIndex("1.5", 0) == 1;
    assert DigitsValue("1.5", 0, 1) == 1;
    assert DigitsValue("1.5", 2, 3) == 5;
  }

  /** A text opening with one digit and "hrs": the hours figure is that digit */
  lemma LeadingDigitHours(s: string)
    requires |s| >= 4 && IsDigit(s[0]) && s[1] == 'h' && s[2] == 'r' && s[3] == 's'
    ensures FirstMatch(s, HoursMark) == Some(Hit(0, s[0..1]))
  {
    assert s[1..3] == HoursMark;
    GreedyHit(s, HoursMark, 0, 1, 1, 1);
  }

  /** The letters of "hrs " after a leading digit start no match */
  lemma HoursWordSkipped(s: string, mark: string)
    requires |s| >= 5 && s[1] == 'h' && s[2] == 'r' && s[3] == 's' && s[4] == ' '
    ensures FirstMatchFrom(s, mark, 1) == FirstMatchFrom(s, mark, 5)
  {
    SkipNonDigits(s, mark, 1, 5);
  }

  // "8 hrs"

  /** An hours figure alone is all regular time */
  lemma ParseEightHours(s: string)
    requires s == "8 hrs"
    ensures ParseHours(s) == Hours(8.0, 0.0)
  {
    EightHoursLower(s);
    EightHoursFigure(s);
    EightHoursNotOvertime(s);
    EightHoursNoOvertime(s);
    DecimalEight();
  }

  lemma EightHoursLower(s: string) requires s == "8 hrs" ensures Lower(s) == s {}

  lemma EightHoursFigure(s: string)
    requires s == "8 hrs"
    ensures FirstMatch(s, HoursMark) == Some(Hit(0, "8"))
  {
    GreedyHit(s, HoursMark, 0, 1, 1, 2);
    assert s[0..1] == "8";
  }

  lemma EightHoursNotOvertime(s: string)
    requires s == "8 hrs"
    ensures FirstMatchFrom(s, OvertimeMark, 0) == FirstMatchFrom(s, OvertimeMark, 1)
  {
    GreedyMiss(s, OvertimeMark, 0, 1, 1, 2, 0);
  }

  lemma EightHoursNoOvertime(s: string)
    requires s == "8 hrs"
    ensures FirstMatchFrom(s, OvertimeMark, 1) == None
  {
    SkipNonDigits(s, OvertimeMark, 1, 5);
  }

  // "2 OT"

  /** An overtime figure alone, in capitals */
  lemma ParseTwoOvertime(s: string)
    requires s == "2 OT"
    ensures ParseHours(s) == Hours(0.0, 2.0)
  {
    TwoOvertimeLower(s);
    var low := Lower(s);
    TwoOvertimeFigure(low);
    TwoOvertimeNotHours(low);
    TwoOvertimeNoHours(low);
    DecimalTwo();
  }

  lemma TwoOvertimeLower(s: string) requires s == "2 OT" ensures Lower(s) == "2 ot" {}

  lemma TwoOvertimeFigure(s: string)
    requires s == "2 ot"
    ensures FirstMatch(s, OvertimeMark) == Some(Hit(0, "2"))
  {
    GreedyHit(s, OvertimeMark, 0, 1, 1, 2);
    assert s[0..1] == "2";
  }

  lemma TwoOvertimeNotHours(s: string)
    requires s == "2 ot"
    ensures FirstMatchFrom(s, HoursMark, 0) == FirstMatchFrom(s, HoursMark, 1)
  {
    GreedyMiss(s, HoursMark, 0, 1, 1, 2, 0);
  }

  lemma TwoOvertimeNoHours(s: string)
    requires s == "2 ot"
    ensures FirstMatchFrom(s, HoursMark, 1) == None
  {
    SkipNonDigits(s, HoursMark, 1, 4);
  }

  // "10hrs 2ot"

  /** Both figures: the hours figure is a total that includes the overtime */
  lemma ParseTotalAndOvertime(s: string)
    requires s == "10hrs 2ot"
    ensures ParseHours(s) == Hours(8.0, 2.0)
  {
    TotalAndOvertimeLower(s);
    TotalAndOvertimeHours(s);
    TotalAndOvertimeSkipTen(s);
    TotalAndOvertimeSkipZero(s);
    TotalAndOvertimeSkipLetters(s);
    TotalAndOvertimeFigure(s);
    DecimalTen();
    DecimalTwo();
  }

  lemma TotalAndOvertimeLower(s: string) requires s == "10hrs 2ot" ensures Lower(s) == s {}

  lemma TotalAndOvertimeHours(s: string)
    requires s == "10hrs 2ot"
    ensures FirstMatch(s, HoursMark) == Some(Hit(0, "10"))
  {
    GreedyHit(s, HoursMark, 0, 2, 2, 2);
    assert s[0..2] == "10";
  }

  lemma TotalAndOvertimeSkipTen(s: string)
    requires s == "10hrs 2ot"
    ensures FirstMatchFrom(s, OvertimeMark, 0) == FirstMatchFrom(s, OvertimeMark, 1)
  {
    GreedyMiss(s, OvertimeMark, 0, 2, 2, 2, 0);
  }

  lemma TotalAndOvertimeSkipZero(s: string)
    requires s == "10hrs 2ot"
    ensures FirstMatchFrom(s, OvertimeMark, 1) == FirstMatchFrom(s, OvertimeMark, 2)
  {
    GreedyMiss(s, OvertimeMark, 1, 2, 2, 2, 0);
  }

  lemma TotalAndOvertimeSkipLetters(s: string)
    requires s == "10hrs 2ot"
    ensures FirstMatchFrom(s, OvertimeMark, 2) == FirstMatchFrom(s, OvertimeMark, 6)
  {
    SkipNonDigits(s, OvertimeMark, 2, 6);
  }

  lemma TotalAndOvertimeFigure(s: string)
    requires s == "10hrs 2ot"
    ensures FirstMatchFrom(s, OvertimeMark, 6) == Some(Hit(6, "2"))
  {
    GreedyHit(s, OvertimeMark, 6, 7, 7, 7);
    assert s[6..7] == "2";
  }

  // "" and "off"

  /** Text without figures carries no hours */
  lemma ParseNoFigures(s: string)
    requires s == "" || s == "off"
    ensures ParseHours(s) == Hours(0.0, 0.0)
  {
    NoFiguresLower(s);
    NoFiguresNoOvertime(s);
    NoFiguresNoHours(s);
  }

  lemma NoFiguresLower(s: string) requires s == "" || s == "off" ensures Lower(s) == s {}

  lemma NoFiguresNoOvertime(s: string)
    requires s == "" || s == "off"
    ensures FirstMatch(s, OvertimeMark) == None
  {
    SkipNonDigits(s, OvertimeMark, 0, |s|);
  }

  lemma NoFiguresNoHours(s: string)
    requires s == "" || s == "off"
    ensures FirstMatch(s, HoursMark) == None
  {
    SkipNonDigits(s, HoursMark, 0, |s|);
  }

  // "2hrs 5ot"

  /** An overtime figure larger than the total makes regular time negative */
  lemma ParseNegativeRegular(s: string)
    requires s == "2hrs 5ot"
    ensures ParseHours(s) == Hours(-3.0, 5.0)
  {
    NegativeRegularLower(s);
    LeadingDigitHours(s);
    assert s[0..1] == "2";
    NegativeRegularSkipTwo(s);
    HoursWordSkipped(s, OvertimeMark);
    NegativeRegularFigure(s);
    DecimalTwo();
    DecimalFive();
  }

  lemma NegativeRegularLower(s: string) requires s == "2hrs 5ot" ensures Lower(s) == s {}

  lemma NegativeRegularSkipTwo(s: string)
    requires s == "2hrs 5ot"
    ensures FirstMatchFrom(s, OvertimeMark, 0) == FirstMatchFrom(s, OvertimeMark, 1)
  {
    GreedyMiss(s, OvertimeMark, 0, 1, 1, 1, 0);
  }

  lemma NegativeRegularFigure(s: string)
    requires s == "2hrs 5ot"
    ensures FirstMatchFrom(s, OvertimeMark, 5) == Some(Hit(5, "5"))
  {
    GreedyHit(s, OvertimeMark, 5, 6, 6, 6);
    assert s[5..6] == "5";
  }

  // "8hrs 4hrs"

  /** Only the leftmost hours figure counts */
  lemma ParseLeftmostOnly(s: string)
    requires s == "8hrs 4hrs"
    ensures ParseHours(s) == Hours(8.0, 0.0)
  {
    LeftmostLower(s);
    LeadingDigitHours(s);
    assert s[0..1] == "8";
    LeftmostSkipEight(s);
    HoursWordSkipped(s, OvertimeMark);
    LeftmostSkipFour(s);
    LeftmostNoOvertime(s);
    DecimalEight();
  }

  lemma LeftmostLower(s: string) requires s == "8hrs 4hrs" ensures Lower(s) == s {}

  lemma LeftmostSkipEight(s: string)
    requires s == "8hrs 4hrs"
    ensures FirstMatchFrom(s, OvertimeMark, 0) == FirstMatchFrom(s, OvertimeMark, 1)
  {
    GreedyMiss(s, OvertimeMark, 0, 1, 1, 1, 0);
  }

  lemma LeftmostSkipFour(s: string)
    requires s == "8hrs 4hrs"
    ensures FirstMatchFrom(s, OvertimeMark, 5) == FirstMatchFrom(s, OvertimeMark, 6)
  {
    GreedyMiss(s, OvertimeMark, 5, 6, 6, 6, 0);
  }

  lemma LeftmostNoOvertime(s: string)
    requires s == "8hrs 4hrs"
    ensures FirstMatchFrom(s, OvertimeMark, 6) == None
  {
    SkipNonDigits(s, OvertimeMark, 6, 9);
  }

  // "1.5 ot"

  /** A decimal overtime figure */
  lemma ParseDecimalOvertime(s: string)
    requires s == "1.5 ot"
    ensures ParseHours(s) == Hours(0.0, 1.5)
  {
    DecimalOvertimeLower(s);
    DecimalOvertimeFigure(s);
    DecimalOvertimeSkipWhole(s);
    DecimalOvertimeSkipDot(s);
    DecimalOvertimeSkipFraction(s);
    DecimalOvertimeNoHours(s);
    DecimalOneAndAHalf();
  }

  lemma DecimalOvertimeLower(s: string) requires s == "1.5 ot" ensures Lower(s) == s {}

  lemma DecimalOvertimeFigure(s: string)
    requires s == "1.5 ot"
    ensures FirstMatch(s, OvertimeMark) == Some(Hit(0, "1.5"))
  {
    GreedyHit(s, OvertimeMark, 0, 1, 3, 4);
    assert s[0..3] == "1.5";
  }

  lemma DecimalOvertimeSkipWhole(s: string)
    requires s == "1.5 ot"
    ensures FirstMatchFrom(s, HoursMark, 0) == FirstMatchFrom(s, HoursMark, 1)
  {
    GreedyMiss(s, HoursMark, 0, 1, 3, 4, 0);
  }

  lemma DecimalOvertimeSkipDot(s: string)
    requires s == "1.5 ot"
    ensures FirstMatchFrom(s, HoursMark, 1) == FirstMatchFrom(s, HoursMark, 2)
  {
    SkipNonDigits(s, HoursMark, 1, 2);
  }

  lemma DecimalOvertimeSkipFraction(s: string)
    requires s == "1.5 ot"
    ensures FirstMatchFrom(s, HoursMark, 2) == FirstMatchFrom(s, HoursMark, 3)
  {
    GreedyMiss(s, HoursMark, 2, 3, 3, 4, 0);
  }

  lemma DecimalOvertimeNoHours(s: string)
    requires s == "1.5 ot"
    ensures FirstMatchFrom(s, HoursMark, 3) == None
  {
    SkipNonDigits(s, HoursMark, 3, 6);
  }
}

=== FILE: pay_periods.dfy ===
/**
 The biweekly pay-period generator and the payday rule. Periods start at the
 anchor and every 14 days after it; each covers 14 days, ending 13 days after
 its start; generation stops at the first start after 31 December of the
 anchor's year, where, as in `new Date(year, 11, 31)`, a year from 0 to 99
 names the year 1900 more. Payday is 5 days after a period's end.
 */
module PayPeriods {
  import opened Calendar

  datatype Period = Period(start: Date, end: Date)

  /** Days from one period start to the next; where it multiplies a count, the
      contracts write the literal 14 so that the arithmetic stays linear */
  const PeriodLength: nat := 14
  /** Days from a period's start to its last day */
  const LastDayOffset: nat := 13
  /** Days from a period's last day to its payday */
  const PaydayOffset: nat := 5

  /** The period that starts on a given day */
  function PeriodAt(start: Date): (p: Period)
    requires Valid(start)
    ensures p.start == start
    ensures Valid(p.end)
    ensures DayNumber(p.end) == DayNumber(start) + LastDayOffset
  {
    Period(start, AddDays(start, LastDayOffset))
  }

  /** The loop of `getPayPeriods`, from the period starting at `current` on */
  function PeriodsFrom(current: Date, limit: Date): (ps: seq<Period>)
    requires Valid(current) && Valid(limit)
    ensures DayNumber(current) <= DayNumber(limit) <==> |ps| > 0
    ensures forall k :: 0 <= k < |ps| ==>
              && Valid(ps[k].start) && Valid(ps[k].end)
              && DayNumber(ps[k].start) == DayNumber(current) + 14 * k
              && DayNumber(ps[k].end) == DayNumber(ps[k].start) + 13
              && DayNumber(ps[k].start) <= DayNumber(limit)
    ensures |ps| > 0 ==> DayNumber(limit) < DayNumber(current) + 14 * |ps|
    decreases if DayNumber(current) <= DayNumber(limit) then DayNumber(limit) - DayNumber(current) + 1 else 0
  {
    if DayNumber(current) <= DayNumber(limit) then
      var rest := PeriodsFrom(AddDays(current, PeriodLength), limit);
      var ps := [PeriodAt(current)] + rest;
      assert forall k :: 1 <= k < |ps| ==> ps[k] == rest[k - 1];
      ps
    else []
  }

  /** How many periods the loop emits: one per 14-day step that stays on or before the limit */
  lemma PeriodsFromCount(current: Date, limit: Date)
    requires Valid(current) && Valid(limit)
    ensures |PeriodsFrom(current, limit)|
         == if DayNumber(current) <= DayNumber(limit)
            then (DayNumber(limit) - DayNumber(current)) / 14 + 1 else 0
  {
    var ps := PeriodsFrom(current, limit);
    if |ps| > 0 {
      var n := |ps|;
      var gap := DayNumber(limit) - DayNumber(current);
      assert 14 * (n - 1) <= gap < 14 * n by {
        assert DayNumber(ps[n - 1].start) == DayNumber(current) + 14 * (n - 1);
      }
    }
  }

  /** The last day on or before which a period may start: 31 December of the anchor's
      year, built with the year-reading of the `Date` constructor */
  function Limit(anchor: Date): (d: Date)
    requires Valid(anchor)
    ensures Valid(d) && DayNumber(anchor) <= DayNumber(d)
    ensures d.year == ConstructorYear(anchor.year)
  {
    OnOrBeforeYearEnd(anchor, ConstructorYear(anchor.year));
    YearEnd(ConstructorYear(anchor.year))
  }

  /** Whether the first comparison of `getPayPeriods` can hold: the anchor is a calendar
      day, and both it and the limit are days a `Date` can hold. Otherwise one side is an
      invalid `Date`, which compares false with every date */
  predicate Emits(anchor: Date) {
    Valid(anchor) && InTimeRange(anchor) && InTimeRange(Limit(anchor))
  }

  /** `getPayPeriods(anchor)` */
  function Generate(anchor: Date): (ps: seq<Period>)
    ensures |ps| > 0 <==> Emits(anchor)
  {
    if Emits(anchor) then PeriodsFrom(anchor, Limit(anchor)) else []
  }

  /** Every calendar day from year -271820 to year 275759 emits: there the anchor and
      its limit are days a `Date` can hold */
  lemma EmitsInsideTimeRange(anchor: Date)
    requires Valid(anchor) && -271820 <= anchor.year <= 275759
    ensures Emits(anchor)
  {
  }

  /** In the last year a `Date` reaches, 31 December lies past its last day, so the limit
      is an invalid `Date` and no period is emitted */
  lemma LastTimeYearEmitsNothing(anchor: Date)
    requires Valid(anchor) && anchor.year == LastTimeDay.year
    ensures Generate(anchor) == []
  {
  }

  /** The payday of a period */
  function Payday(p: Period): (d: Date)
    requires Valid(p.end)
    ensures Valid(d)
    ensures DayNumber(d) == DayNumber(p.end) + PaydayOffset
  {
    AddDays(p.end, PaydayOffset)
  }

  /** The periods form a grid of 14-day steps from the anchor: period k starts
      14k days after the anchor and ends 13 days after its own start */
  lemma {:induction false} GenerateShape(anchor: Date)
    requires Emits(anchor)
    ensures |Generate(anchor)| > 0 && Generate(anchor)[0].start == anchor
    ensures forall k :: 0 <= k < |Generate(anchor)| ==>
              && Generate(anchor)[k].start == AddDays(anchor, 14 * k)
              && Generate(anchor)[k].end == AddDays(Generate(anchor)[k].start, LastDayOffset)
  {
    var ps := Generate(anchor);
    forall k | 0 <= k < |ps|
      ensures ps[k].start == AddDays(anchor, 14 * k)
      ensures ps[k].end == AddDays(ps[k].start, LastDayOffset)
    {
      DayNumberInjective(ps[k].start, AddDays(anchor, 14 * k));
      DayNumberInjective(ps[k].end, AddDays(ps[k].start, LastDayOffset));
    }
    DayNumberInjective(ps[0].start, anchor);
  }

  /** Consecutive periods: the next starts 14 days after the previous one, the day
      after the previous one ends, so the periods leave no gap and do not overlap */
  lemma {:induction false} GenerateTiles(anchor: Date, k: nat)
    requires Valid(anchor)
    requires k + 1 < |Generate(anchor)|
    ensures Generate(anchor)[k + 1].start == AddDays(Generate(anchor)[k].start, PeriodLength)
    ensures Generate(anchor)[k + 1].start == NextDay(Generate(anchor)[k].end)
    ensures DayNumber(Generate(anchor)[k].start) < DayNumber(Generate(anchor)[k + 1].start)
  {
    var ps := Generate(anchor);
    DayNumberInjective(ps[k + 1].start, AddDays(ps[k].start, PeriodLength));
    DayNumberInjective(ps[k + 1].start, NextDay(ps[k].end));
  }

  /** Every period starts between the anchor's year and the limit's year, and the
      start after the last one falls after the limit's year; outside the years 0 to
      99 both are the anchor's year. The last period may end in the next year */
  lemma {:induction false} GenerateStaysInYear(anchor: Date)
    requires Emits(anchor)
    ensures |Generate(anchor)| > 0
    ensures forall k :: 0 <= k < |Generate(anchor)| ==>
              anchor.year <= Generate(anchor)[k].start.year <= ConstructorYear(anchor.year)
    ensures !(0 <= anchor.year <= 99) ==>
              forall k :: 0 <= k < |Generate(anchor)| ==> Generate(anchor)[k].start.year == anchor.year
    ensures var ps := Generate(anchor);
            AddDays(ps[|ps| - 1].start, PeriodLength).year > ConstructorYear(anchor.year)
  {
    var ps := Generate(anchor);
    var y := anchor.year;
    var last := ConstructorYear(y);
    OnOrBeforeYearEnd(anchor, y - 1);
    OnOrBeforeYearEnd(YearEnd(y - 1), y - 1);
    forall k | 0 <= k < |ps| ensures y <= ps[k].start.year <= last {
      OnOrBeforeYearEnd(ps[k].start, last);
      OnOrBeforeYearEnd(ps[k].start, y - 1);
    }
    var next := AddDays(ps[|ps| - 1].start, PeriodLength);
    OnOrBeforeYearEnd(next, last);
  }

  /** A day lies in period k exactly when k is the number of whole 14-day steps from
      the anchor to it: every day covered lies in one period only */
  lemma {:induction false} GenerateCoversOnce(anchor: Date, d: Date, k: nat)
    requires Valid(anchor) && Valid(d)
    requires k < |Generate(anchor)|
    requires DayNumber(anchor) <= DayNumber(d)
    ensures (DayNumber(Generate(anchor)[k].start) <= DayNumber(d) <= DayNumber(Generate(anchor)[k].end))
        <==> k == (DayNumber(d) - DayNumber(anchor)) / 14
  {
  }

  /** A year holds at most 27 periods; an anchor in the years 0 to 99 runs on to the
      end of 1900 + its year, more than 49000 periods; every anchor a `Date` can hold
      with its limit gives at least one */
  lemma {:induction false} GenerateCount(anchor: Date)
    requires Valid(anchor)
    ensures -271820 <= anchor.year <= 275759 ==> 1 <= |Generate(anchor)|
    ensures !(0 <= anchor.year <= 99) ==> |Generate(anchor)| <= 27
    ensures 0 <= anchor.year <= 99 ==> |Generate(anchor)| > 49000
  {
    if Emits(anchor) {
      PeriodsFromCount(anchor, Limit(anchor));
      if 0 <= anchor.year <= 99 {
        EarlyYearGap(anchor);
      } else {
        DaysToYearEnd(anchor);
      }
    }
    if -271820 <= anchor.year <= 275759 {
      EmitsInsideTimeRange(anchor);
    }
  }

  /** From an anchor in the years 0 to 99 to its limit lie at least 1899 whole years */
  lemma EarlyYearGap(anchor: Date)
    requires Valid(anchor) && 0 <= anchor.year <= 99
    ensures DayNumber(Limit(anchor)) - DayNumber(anchor) > 1899 * 365
  {
    var y := anchor.year;
    DayNumberWithinYear(anchor);
    DayNumberWithinYear(Limit(anchor));
    DaysBeforeYearGrows(y + 1, 1900 + y);
  }

  /** Outside the years 0 to 99 the limit is 31 December of the anchor's own year */
  lemma LimitInOwnYear(anchor: Date)
    requires Valid(anchor) && !(0 <= anchor.year <= 99)
    ensures Limit(anchor) == YearEnd(anchor.year)
  {
  }

  /** For a calendar day from year 100 to year 275759 the loop runs from the anchor to
      31 December of the anchor's own year */
  lemma GenerateInOwnYear(anchor: Date)
    requires Valid(anchor) && 100 <= anchor.year <= 275759
    ensures Generate(anchor) == PeriodsFrom(anchor, YearEnd(anchor.year))
  {
    EmitsInsideTimeRange(anchor);
    LimitInOwnYear(anchor);
  }

  /** Each payday falls 18 days after its period starts, inside the next period */
  lemma {:induction false} PaydayInNextPeriod(anchor: Date, k: nat)
    requires Valid(anchor)
    requires k < |Generate(anchor)|
    ensures var p := Generate(anchor)[k];
            Payday(p) == AddDays(p.start, LastDayOffset + PaydayOffset)
    ensures var p := Generate(anchor)[k];
            DayNumber(p.start) + PeriodLength <= DayNumber(Payday(p)) <= DayNumber(p.end) + PeriodLength
  {
    var p := Generate(anchor)[k];
    DayNumberInjective(Payday(p), AddDays(p.start, LastDayOffset + PaydayOffset));
  }
}

=== FILE: scenarios.dfy ===
/**
 Worked examples of the schedule: the literal anchor of the events callback
 (10 August 2025), a year-end anchor, and one period's totals end to end.
 The anchors and status texts are parameters fixed by the preconditions, so
 that day ordinals are related by their differences rather than counted out
 from year 1.
 */
module Scenarios {
  import opened Wrappers
  import opened Calendar
  import opened StatusParser
  import opened PayPeriods
  import opened Aggregation
  import opened ParserExamples

  /** First period 2025-08-10..2025-08-23, paid 2025-08-28; eleven periods in all, the
      last starting 2025-12-28 and running into 2026 */
  lemma LiteralAnchorSchedule(anchor: Date)
    requires anchor == Date(2025, 8, 10)
    ensures |Generate(anchor)| == 11
    ensures Generate(anchor)[0] == Period(Date(2025, 8, 10), Date(2025, 8, 23))
    ensures Payday(Generate(anchor)[0]) == Date(2025, 8, 28)
    ensures Generate(anchor)[10] == Period(Date(2025, 12, 28), Date(2026, 1, 10))
  {
    GenerateInOwnYear(anchor);
    LiteralAnchorCount(anchor);
    LiteralAnchorFirst(anchor);
    LiteralAnchorLast(anchor);
  }

  lemma LiteralAnchorCount(anchor: Date)
    requires anchor == Date(2025, 8, 10)
    ensures |PeriodsFrom(anchor, YearEnd(anchor.year))| == 11
  {
    MonthsFillYear(anchor.year);
    PeriodsFromCount(anchor, YearEnd(anchor.year));
  }

  lemma LiteralAnchorFirst(anchor: Date)
    requires anchor == Date(2025, 8, 10)
    ensures var ps := PeriodsFrom(anchor, YearEnd(anchor.year));
            |ps| > 0
            && ps[0] == Period(Date(2025, 8, 10), Date(2025, 8, 23))
            && Payday(ps[0]) == Date(2025, 8, 28)
  {
    var y := anchor.year;
    var ps := PeriodsFrom(anchor, YearEnd(y));
    OnOrBeforeYearEnd(anchor, y);
    AddDaysWithinMonth(anchor, LastDayOffset);
    AddDaysWithinMonth(Date(y, 8, 23), PaydayOffset);
    DayNumberInjective(ps[0].start, anchor);
    DayNumberInjective(ps[0].end, Date(y, 8, 23));
  }

  lemma LiteralAnchorLast(anchor: Date)
    requires anchor == Date(2025, 8, 10)
    requires |PeriodsFrom(anchor, YearEnd(anchor.year))| == 11
    ensures PeriodsFrom(anchor, YearEnd(anchor.year))[10] == Period(Date(2025, 12, 28), Date(2026, 1, 10))
  {
    var ps := PeriodsFrom(anchor, YearEnd(anchor.year));
    LiteralAnchorLastStart(anchor, ps[10]);
    LiteralAnchorLastEnd(ps[10]);
  }

  /** The eleventh start lies 140 days after 10 August: 28 December */
  lemma LiteralAnchorLastStart(anchor: Date, p: Period)
    requires anchor == Date(2025, 8, 10)
    requires Valid(p.start) && DayNumber(p.start) == DayNumber(anchor) + 14 * 10
    ensures p.start == Date(2025, 12, 28)
  {
    MonthsFillYear(anchor.year);
    DayNumberInjective(p.start, Date(anchor.year, 12, 28));
  }

  /** Thirteen days after 28 December is 10 January of the next year */
  lemma LiteralAnchorLastEnd(p: Period)
    requires p.start == Date(2025, 12, 28)
    requires Valid(p.end) && DayNumber(p.end) == DayNumber(p.start) + 13
    ensures p.end == Date(2026, 1, 10)
  {
    var y := p.start.year;
    YearStep(y);
    MonthsFillYear(y);
    DayNumberInjective(p.end, Date(y + 1, 1, 10));
  }

  /** An anchor 11 days before year end gives one period, which ends in the next year */
  lemma YearEndAnchor(anchor: Date)
    requires anchor == Date(2025, 12, 20)
    ensures Generate(anchor) == [Period(Date(2025, 12, 20), Date(2026, 1, 2))]
    ensures Payday(Generate(anchor)[0]) == Date(2026, 1, 7)
  {
    var ps := PeriodsFrom(anchor, YearEnd(anchor.year));
    GenerateInOwnYear(anchor);
    YearEndAnchorCount(anchor);
    DayNumberInjective(ps[0].start, anchor);
    YearEndAnchorEnd(ps[0]);
  }

  lemma YearEndAnchorCount(anchor: Date)
    requires anchor == Date(2025, 12, 20)
    ensures |PeriodsFrom(anchor, YearEnd(anchor.year))| == 1
  {
    PeriodsFromCount(anchor, YearEnd(anchor.year));
  }

  /** Thirteen days after 20 December is 2 January, and five more is 7 January */
  lemma YearEndAnchorEnd(p: Period)
    requires p.start == Date(2025, 12, 20)
    requires Valid(p.end) && DayNumber(p.end) == DayNumber(p.start) + 13
    ensures p.end == Date(2026, 1, 2)
    ensures Payday(p) == Date(2026, 1, 7)
  {
    var y := p.start.year;
    MonthsFillYear(y);
    YearStep(y);
    DayNumberInjective(p.end, Date(y + 1, 1, 2));
    AddDaysWithinMonth(Date(y + 1, 1, 2), PaydayOffset);
  }

  /** A store holding `first` on the anchor and `second` five days later */
  function ExampleStore(anchor: Date, first: string, second: string): Lookup {
    d => if d == anchor then Some(first)
         else if d == Date(anchor.year, anchor.month, anchor.day + 5) then Some(second)
         else None
  }

  /** The hours the example store gives the k-th day of the first period */
  function ExpectedHours(k: int): Hours {
    if k == 0 then Hours(8.0, 0.0) else if k == 5 then Hours(8.0, 2.0) else Zero
  }

  /** With "8 hrs" on the anchor and "10hrs 2ot" five days later, the first period
      reports 16 regular and 2 overtime hours */
  lemma FirstPeriodTotals(anchor: Date, first: string, second: string)
    requires anchor == Date(2025, 8, 10)
    requires first == "8 hrs" && second == "10hrs 2ot"
    ensures PeriodHours(ExampleStore(anchor, first, second), Generate(anchor)[0]) == Hours(16.0, 2.0)
  {
    var store := ExampleStore(anchor, first, second);
    var days := FirstPeriodDays(anchor);
    var hs := HoursOf(store, days);
    forall k | 0 <= k < 14 ensures hs[k] == ExpectedHours(k) {
      StoreHours(anchor, first, second, k);
    }
    ExpectedTotal(hs);
  }

  /** The first period's walk visits 10 to 23 August */
  lemma FirstPeriodDays(anchor: Date) returns (days: seq<Date>)
    requires anchor == Date(2025, 8, 10)
    ensures Valid(Generate(anchor)[0].start) && Valid(Generate(anchor)[0].end)
    ensures days == PeriodDays(Generate(anchor)[0])
    ensures |days| == 14
    ensures forall k :: 0 <= k < 14 ==> days[k] == Date(anchor.year, 8, 10 + k)
  {
    LiteralAnchorSchedule(anchor);
    GeneratedPeriodSpan(anchor, 0);
    days := PeriodDays(Generate(anchor)[0]);
    forall k | 0 <= k < 14 ensures days[k] == Date(anchor.year, 8, 10 + k) {
      AddDaysWithinMonth(anchor, k);
    }
  }

  lemma StoreHours(anchor: Date, first: string, second: string, k: int)
    requires anchor == Date(2025, 8, 10)
    requires first == "8 hrs" && second == "10hrs 2ot"
    requires 0 <= k < 14
    ensures DayHours(ExampleStore(anchor, first, second), Date(anchor.year, 8, 10 + k)) == ExpectedHours(k)
  {
    var store := ExampleStore(anchor, first, second);
    if k == 0 {
      assert store(Date(anchor.year, 8, 10 + k)) == Some(first);
      ParseEightHours(first);
    } else if k == 5 {
      assert store(Date(anchor.year, 8, 10 + k)) == Some(second);
      ParseTotalAndOvertime(second);
    } else {
      assert store(Date(anchor.year, 8, 10 + k)) == None;
    }
  }

  /** The running totals of the first n days of the example period */
  lemma {:induction false} ExpectedRunningTotal(n: nat)
    requires n <= 14
    ensures Sum(seq(n, ExpectedHours))
         == if n == 0 then Zero else if n <= 5 then Hours(8.0, 0.0) else Hours(16.0, 2.0)
  {
    if n > 0 {
      ExpectedRunningTotal(n - 1);
      assert seq(n, ExpectedHours)[..n - 1] == seq(n - 1, ExpectedHours);
    }
  }

  lemma ExpectedTotal(hs: seq<Hours>)
    requires |hs| == 14
    requires forall k :: 0 <= k < 14 ==> hs[k] == ExpectedHours(k)
    ensures Sum(hs) == Hours(16.0, 2.0)
  {
    ExpectedRunningTotal(14);
    assert hs == seq(14, ExpectedHours);
  }
}

=== FILE: schedule.dfy ===
/**
 The schedule engine: for every generated period, its payday and its hour
 totals, in generation order. This is the data the events callback turns into
 "START PAY", "END PAY" and "PAYDAY ... REG: r OT: o" calendar entries.
 */
module Schedule {
  import opened Calendar
  import opened StatusParser
  import opened PayPeriods
  import opened Aggregation

  datatype PeriodSummary = PeriodSummary(period: Period, payday: Date, hours: Hours)

  /** s is what the schedule reports for period p: payday 5 days after the period's
      end, and the parsed hours of exactly the period's days that have a non-empty status */
  ghost predicate Describes(lookup: Lookup, p: Period, s: PeriodSummary) {
    && s.period == p
    && Valid(p.start) && Valid(p.end) && Valid(s.payday)
    && DayNumber(s.payday) == DayNumber(p.end) + PaydayOffset
    && s.hours == Sum(ParsedAll(PresentStatuses(lookup, PeriodDays(p))))
  }

  /** `payPeriods.forEach(...)`: one summary per period, in order */
  method Build(anchor: Date, lookup: Lookup) returns (summaries: seq<PeriodSummary>)
    ensures |summaries| == |Generate(anchor)|
    ensures forall k :: 0 <= k < |summaries| ==> Describes(lookup, Generate(anchor)[k], summaries[k])
  {
    var periods := Generate(anchor);
    summaries := [];
    var k := 0;
    while k < |periods|
      invariant k <= |periods|
      invariant |summaries| == k
      invariant forall i :: 0 <= i < k ==> Describes(lookup, periods[i], summaries[i])
    {
      var p := periods[k];
      GeneratedPeriodSpan(anchor, k);
      var payday := Payday(p);
      var hours := TotalHours(lookup, p);
      SummaryDescribes(lookup, p, hours);
      DescribesAppended(lookup, periods, summaries, PeriodSummary(p, payday, hours));
      summaries := summaries + [PeriodSummary(p, payday, hours)];
      k := k + 1;
    }
  }

  /** Appending the summary of period k keeps every summary describing its period */
  lemma DescribesAppended(lookup: Lookup, periods: seq<Period>, summaries: seq<PeriodSummary>, s: PeriodSummary)
    requires |summaries| < |periods|
    requires forall i :: 0 <= i < |summaries| ==> Describes(lookup, periods[i], summaries[i])
    requires Describes(lookup, periods[|summaries|], s)
    ensures forall i :: 0 <= i <= |summaries| ==> Describes(lookup, periods[i], (summaries + [s])[i])
  {
  }

  lemma SummaryDescribes(lookup: Lookup, p: Period, hours: Hours)
    requires Valid(p.start) && Valid(p.end)
    requires hours == Sum(HoursOf(lookup, PeriodDays(p)))
    ensures Describes(lookup, p, PeriodSummary(p, Payday(p), hours))
  {
    AbsentDaysAddNothing(lookup, PeriodDays(p));
  }
}

=== FILE: status_category.dfy ===
/**
 The category a day's entry is shown with: a status mentioning "ot" is
 overtime, else one mentioning "off" is a day off, else one mentioning
 "canal" is a canal shift, and anything else is a regular 8-hour day.
 */
module StatusCategory {
  import opened Text

  datatype Category = Overtime | DayOff | Canal | EightHours

  /** sub occurs somewhere in s */
  ghost predicate Mentions(s: string, sub: string) {
    exists k :: OccursAt(s, sub, k)
  }

  /** The class-name choice of the events callback, matching case-insensitively */
  function CategoryOf(status: string): (c: Category)
    ensures c == Overtime <==> Mentions(Lower(status), "ot")
    ensures c == DayOff <==> !Mentions(Lower(status), "ot") && Mentions(Lower(status), "off")
    ensures c == Canal <==>
              !Mentions(Lower(status), "ot") && !Mentions(Lower(status), "off") && Mentions(Lower(status), "canal")
    ensures c == EightHours <==>
              !Mentions(Lower(status), "ot") && !Mentions(Lower(status), "off") && !Mentions(Lower(status), "canal")
  {
    var text := Lower(status);
    if Includes(text, "ot") then Overtime
    else if Includes(text, "off") then DayOff
    else if Includes(text, "canal") then Canal
    else EightHours
  }
}

=== FILE: status_parser.dfy ===
/**
 The status-text parser: a free-text day status becomes a pair of regular and
 overtime hours. The text is lower-cased, the leftmost match of
 `(\d+(\.\d+)?)\s*ot` gives the overtime figure and the leftmost match of
 `(\d+(\.\d+)?)\s*hrs?` the hours figure; when both are present the hours
 figure is a total from which overtime is subtracted.
 */
module StatusParser {
  import opened Wrappers
  import opened Text

  datatype Hours = Hours(regular: real, overtime: real)

  /** The literal after the number in the overtime pattern */
  const OvertimeMark: string := "ot"
  /** The literal after the number in the hours pattern `hrs?`; the optional `s`
      never decides whether or where that pattern matches, nor what it captures */
  const HoursMark: string := "hr"

  /** A literal that cannot continue a number or the blanks after it */
  predicate IsMark(mark: string) {
    |mark| > 0 && !IsDigit(mark[0]) && mark[0] != '.' && !IsSpace(mark[0])
  }

  lemma MarksAreMarks()
    ensures IsMark(OvertimeMark) && IsMark(HoursMark)
  {
  }

  predicate AllDigits(x: string) {
    forall k :: 0 <= k < |x| ==> IsDigit(x[k])
  }

  predicate AllSpaces(x: string) {
    forall k :: 0 <= k < |x| ==> IsSpace(x[k])
  }

  /** The texts the group `(\d+(\.\d+)?)` can capture */
  ghost predicate IsNumeral(x: string) {
    || (|x| > 0 && AllDigits(x))
    || (exists p :: 0 < p < |x| - 1 && x[p] == '.' && AllDigits(x[..p]) && AllDigits(x[p + 1..]))
  }

  /** The pattern `(\d+(\.\d+)?)\s*<mark>` matches s from position i: the group
      is s[i..j], blanks fill s[j..t] and the mark follows at t */
  ghost predicate Accepts(s: string, mark: string, i: int, j: int, t: int) {
    && 0 <= i <= j <= t
    && t + |mark| <= |s|
    && IsNumeral(s[i..j])
    && AllSpaces(s[j..t])
    && s[t..t + |mark|] == mark
  }

  /** i is the leftmost position where the pattern matches, with group s[i..j] */
  ghost predicate LeftmostAcceptance(s: string, mark: string, i: int, j: int, t: int) {
    && Accepts(s, mark, i, j, t)
    && forall i', j', t' :: 0 <= i' < i ==> !Accepts(s, mark, i', j', t')
  }

  /** The pattern matches nowhere in s */
  ghost predicate NoAcceptance(s: string, mark: string) {
    forall i, j, t :: !Accepts(s, mark, i, j, t)
  }

  /** End of the longest run of digits starting at i */
  function DigitRun(s: string, i: nat): (j: nat)
    requires i <= |s|
    ensures i <= j <= |s|
    ensures forall k :: i <= k < j ==> IsDigit(s[k])
    ensures j == |s| || !IsDigit(s[j])
    decreases |s| - i
  {
    if i < |s| && IsDigit(s[i]) then DigitRun(s, i + 1) else i
  }

  /** End of the longest run of blanks starting at i */
  function SpaceRun(s: string, i: nat): (j: nat)
    requires i <= |s|
    ensures i <= j <= |s|
    ensures forall k :: i <= k < j ==> IsSpace(s[k])
    ensures j == |s| || !IsSpace(s[j])
    decreases |s| - i
  {
    if i < |s| && IsSpace(s[i]) then SpaceRun(s, i + 1) else i
  }

  /** End of the greedy reading of `\d+(\.\d+)?` from i: the digit run, extended by
      a dot and a second digit run when a digit follows the dot */
  function GroupEnd(s: string, i: nat): (e: nat)
    requires i <= |s|
    ensures i <= e <= |s|
  {
    var w := DigitRun(s, i);
    if w + 1 < |s| && s[w] == '.' && IsDigit(s[w + 1]) then DigitRun(s, w + 1) else w
  }

  /** The group the pattern captures when matching from position i, if it matches there.
      The greedy reading is the only one that can succeed: a shorter digit run
      leaves a digit where a dot, a blank or the mark must stand. */
  function MatchAt(s: string, mark: string, i: nat): Option<string>
    requires i <= |s|
  {
    if i < |s| && IsDigit(s[i]) then
      var e := GroupEnd(s, i);
      var t := SpaceRun(s, e);
      if t + |mark| <= |s| && s[t..t + |mark|] == mark then Some(s[i..e]) else None
    else None
  }

  /** What MatchAt captures is a match of the pattern from position i: the greedy
      group, then the longest run of blanks, then the mark */
  lemma MatchAtSound(s: string, mark: string, i: nat)
    requires i <= |s|
    ensures MatchAt(s, mark, i).Some? ==>
              && Accepts(s, mark, i, GroupEnd(s, i), SpaceRun(s, GroupEnd(s, i)))
              && MatchAt(s, mark, i).value == s[i..GroupEnd(s, i)]
  {
    if MatchAt(s, mark, i).Some? {
      var w := DigitRun(s, i);
      AcceptsGreedy(s, mark, i, w, GroupEnd(s, i), SpaceRun(s, GroupEnd(s, i)));
    }
  }

  /** The greedy runs read by MatchAt, followed by blanks and the mark, are a match */
  lemma AcceptsGreedy(s: string, mark: string, i: nat, w: nat, e: nat, t: nat)
    requires i < w <= e <= t <= |s|
    requires forall k :: i <= k < w ==> IsDigit(s[k])
    requires e == w || (w + 1 < e && s[w] == '.' && forall k :: w + 1 <= k < e ==> IsDigit(s[k]))
    requires forall k :: e <= k < t ==> IsSpace(s[k])
    requires t + |mark| <= |s| && s[t..t + |mark|] == mark
    ensures Accepts(s, mark, i, e, t)
  {
    var x := s[i..e];
    if e != w {
      var p := w - i;
      assert x[..p] == s[i..w];
      assert x[p + 1..] == s[w + 1..e];
      assert x[p] == '.';
    }
    assert forall k :: 0 <= k < t - e ==> s[e..t][k] == s[e + k];
  }

  /** The greedy reading of a captured group ends where the group ends */
  lemma GreedyGroup(s: string, i: nat, j: nat)
    requires i < j < |s|
    requires IsNumeral(s[i..j])
    requires !IsDigit(s[j]) && s[j] != '.'
    ensures GroupEnd(s, i) == j
  {
    var x := s[i..j];
    if |x| > 0 && AllDigits(x) {
      GreedyWhole(s, i, j);
    } else {
      var p :| 0 < p < |x| - 1 && x[p] == '.' && AllDigits(x[..p]) && AllDigits(x[p + 1..]);
      GreedyFractionSlice(s, i, p, j);
    }
  }

  lemma GreedyWhole(s: string, i: nat, j: nat)
    requires i < j < |s|
    requires AllDigits(s[i..j])
    requires !IsDigit(s[j]) && s[j] != '.'
    ensures GroupEnd(s, i) == j
  {
    DigitsOfSlice(s, i, j);
    DigitRunStops(s, i, j);
  }

  lemma GreedyFractionSlice(s: string, i: nat, p: nat, j: nat)
    requires i < j < |s| && 0 < p < j - i - 1
    requires s[i..j][p] == '.'
    requires AllDigits(s[i..j][..p]) && AllDigits(s[i..j][p + 1..])
    requires !IsDigit(s[j])
    ensures GroupEnd(s, i) == j
  {
    var x := s[i..j];
    assert x[..p] == s[i..i + p];
    assert x[p + 1..] == s[i + p + 1..j];
    DigitsOfSlice(s, i, i + p);
    DigitsOfSlice(s, i + p + 1, j);
    GreedyFraction(s, i, i + p, j);
  }

  /** Digits, a dot, digits: the greedy reading covers all three */
  lemma GreedyFraction(s: string, i: nat, w: nat, j: nat)
    requires i < w && w + 1 < j < |s|
    requires forall k :: i <= k < w ==> IsDigit(s[k])
    requires s[w] == '.'
    requires forall k :: w + 1 <= k < j ==> IsDigit(s[k])
    requires !IsDigit(s[j])
    ensures GroupEnd(s, i) == j
  {
    DigitRunStops(s, i, w);
    DigitRunStops(s, w + 1, j);
  }

  lemma DigitsOfSlice(s: string, i: nat, j: nat)
    requires i <= j <= |s|
    requires AllDigits(s[i..j])
    ensures forall k :: i <= k < j ==> IsDigit(s[k])
  {
    assert forall k :: i <= k < j ==> s[i..j][k - i] == s[k];
  }

  /** Blanks that stop before a non-blank are the longest run of blanks */
  lemma SpaceRunEnds(s: string, j: nat, t: nat)
    requires j <= t < |s|
    requires AllSpaces(s[j..t]) && !IsSpace(s[t])
    ensures SpaceRun(s, j) == t
  {
    assert forall k :: j <= k < t ==> s[j..t][k - j] == s[k];
  }

  /** Every way the pattern can match from position i captures what MatchAt captures */
  lemma MatchAtComplete(s: string, mark: string, i: nat, j: int, t: int)
    requires IsMark(mark)
    requires i <= |s|
    requires Accepts(s, mark, i, j, t)
    ensures MatchAt(s, mark, i) == Some(s[i..j])
  {
    assert s[t] == mark[0] by { assert s[t..t + |mark|][0] == s[t]; }
    assert IsDigit(s[i]) && i < j by { assert s[i..j][0] == s[i]; }
    assert !IsDigit(s[j]) && s[j] != '.' by {
      if j < t {
        assert s[j..t][0] == s[j];
      }
    }
    GreedyGroup(s, i, j);
    SpaceRunEnds(s, j, t);
  }

  /** A leftmost match found by scanning positions i, i + 1, ... */
  datatype Hit = Hit(pos: nat, group: string)

  /** `match` restricted to positions from i on */
  function FirstMatchFrom(s: string, mark: string, i: nat): Option<Hit>
    requires i <= |s|
    decreases |s| - i
  {
    match MatchAt(s, mark, i)
    case Some(g) => Some(Hit(i, g))
    case None => if i == |s| then None else FirstMatchFrom(s, mark, i + 1)
  }

  /** The scan from i stops at the first position from i on where MatchAt captures,
      and finds nothing exactly when it captures nowhere from i on */
  lemma {:induction false} FirstMatchFromScans(s: string, mark: string, i: nat)
    requires i <= |s|
    ensures var r := FirstMatchFrom(s, mark, i);
            && (r.Some? ==> i <= r.value.pos <= |s| && MatchAt(s, mark, r.value.pos) == Some(r.value.group))
            && (forall q :: i <= q <= |s| && (r.None? || q < r.value.pos) ==> MatchAt(s, mark, q).None?)
    decreases |s| - i
  {
    if MatchAt(s, mark, i).None? && i < |s| {
      FirstMatchFromScans(s, mark, i + 1);
      var r := FirstMatchFrom(s, mark, i + 1);
      assert FirstMatchFrom(s, mark, i) == r;
      forall q | i <= q <= |s| && (r.None? || q < r.value.pos)
        ensures MatchAt(s, mark, q).None?
      {
        if q > i {
          assert i + 1 <= q;
        }
      }
    }
  }

  /** `s.match(pattern)`: the leftmost match and its group */
  function FirstMatch(s: string, mark: string): (r: Option<Hit>)
    ensures r.Some? ==> r.value.pos <= |s| && MatchAt(s, mark, r.value.pos) == Some(r.value.group)
    ensures forall q :: 0 <= q <= |s| && (r.None? || q < r.value.pos) ==> MatchAt(s, mark, q).None?
  {
    FirstMatchFromScans(s, mark, 0);
    FirstMatchFrom(s, mark, 0)
  }

  /** FirstMatch finds nothing exactly when the pattern matches nowhere */
  lemma FirstMatchNone(s: string, mark: string)
    requires IsMark(mark)
    ensures FirstMatch(s, mark).None? <==> NoAcceptance(s, mark)
  {
    FirstMatchFromScans(s, mark, 0);
    if FirstMatch(s, mark).None? {
      forall i, j, t | Accepts(s, mark, i, j, t) ensures false {
        MatchAtComplete(s, mark, i, j, t);
      }
    } else {
      var h := FirstMatch(s, mark).value;
      MatchAtSound(s, mark, h.pos);
      assert Accepts(s, mark, h.pos, GroupEnd(s, h.pos), SpaceRun(s, GroupEnd(s, h.pos)));
    }
  }

  /** FirstMatch finds the leftmost position where the pattern matches, with its group */
  lemma FirstMatchLeftmost(s: string, mark: string, i: nat, j: int, t: int)
    requires IsMark(mark)
    requires LeftmostAcceptance(s, mark, i, j, t)
    ensures FirstMatch(s, mark) == Some(Hit(i, s[i..j]))
  {
    assert i <= |s| by { assert t + |mark| <= |s|; }
    MatchAtComplete(s, mark, i, j, t);
    FirstMatchFromScans(s, mark, 0);
    var r := FirstMatch(s, mark);
    assert r.Some? && r.value.pos <= i;
    var p := r.value.pos;
    MatchAtSound(s, mark, p);
    var e := GroupEnd(s, p);
    var blanks := SpaceRun(s, e);
    assert p < i ==> !Accepts(s, mark, p, e, blanks);
  }

  /** FirstMatch finds every leftmost acceptance there is */
  lemma FirstMatchFindsLeftmost(s: string, mark: string)
    requires IsMark(mark)
    ensures forall i, j, t :: LeftmostAcceptance(s, mark, i, j, t) ==> FirstMatch(s, mark) == Some(Hit(i, s[i..j]))
  {
    forall i, j, t | LeftmostAcceptance(s, mark, i, j, t)
      ensures FirstMatch(s, mark) == Some(Hit(i, s[i..j]))
    {
      FirstMatchLeftmost(s, mark, i, j, t);
    }
  }

  /** What MatchAt reads at position i, given where its digit, fraction and blank runs end */
  lemma GreedyReading(s: string, mark: string, i: nat, w: nat, e: nat, t: nat)
    requires i < w <= e <= t <= |s|
    requires forall k :: i <= k < w ==> IsDigit(s[k])
    requires w == |s| || !IsDigit(s[w])
    requires e == w ==> !(w + 1 < |s| && s[w] == '.' && IsDigit(s[w + 1]))
    requires e != w ==> && s[w] == '.' && w + 1 < e
                        && (forall k :: w + 1 <= k < e ==> IsDigit(s[k]))
                        && (e == |s| || !IsDigit(s[e]))
    requires forall k :: e <= k < t ==> IsSpace(s[k])
    requires t == |s| || !IsSpace(s[t])
    ensures MatchAt(s, mark, i)
         == if t + |mark| <= |s| && s[t..t + |mark|] == mark then Some(s[i..e]) else None
  {
    DigitRunStops(s, i, w);
    if e != w {
      DigitRunStops(s, w + 1, e);
    }
    assert GroupEnd(s, i) == e;
    SpaceRunStops(s, e, t);
    assert i < |s| && IsDigit(s[i]);
  }

  /** Digits from i up to a non-digit or the end are the longest run of digits */
  lemma DigitRunStops(s: string, i: nat, j: nat)
    requires i <= j <= |s|
    requires forall k :: i <= k < j ==> IsDigit(s[k])
    requires j == |s| || !IsDigit(s[j])
    ensures DigitRun(s, i) == j
  {
  }

  /** Blanks from i up to a non-blank or the end are the longest run of blanks */
  lemma SpaceRunStops(s: string, i: nat, j: nat)
    requires i <= j <= |s|
    requires forall k :: i <= k < j ==> IsSpace(s[k])
    requires j == |s| || !IsSpace(s[j])
    ensures SpaceRun(s, i) == j
  {
  }

  /** The greedy runs at i followed by the mark: the search from i stops at i */
  lemma GreedyHit(s: string, mark: string, i: nat, w: nat, e: nat, t: nat)
    requires i < w <= e <= t <= |s|
    requires forall k :: i <= k < w ==> IsDigit(s[k])
    requires w == |s| || !IsDigit(s[w])
    requires e == w ==> !(w + 1 < |s| && s[w] == '.' && IsDigit(s[w + 1]))
    requires e != w ==> && s[w] == '.' && w + 1 < e
                        && (forall k :: w + 1 <= k < e ==> IsDigit(s[k]))
                        && (e == |s| || !IsDigit(s[e]))
    requires forall k :: e <= k < t ==> IsSpace(s[k])
    requires t == |s| || !IsSpace(s[t])
    requires t + |mark| <= |s| && s[t..t + |mark|] == mark
    ensures FirstMatchFrom(s, mark, i) == Some(Hit(i, s[i..e]))
  {
    GreedyReading(s, mark, i, w, e, t);
  }

  /** The greedy runs at i not followed by the mark (it runs past the end, or differs
      at offset miss): the search moves on from i */
  lemma GreedyMiss(s: string, mark: string, i: nat, w: nat, e: nat, t: nat, miss: nat)
    requires i < w <= e <= t <= |s|
    requires forall k :: i <= k < w ==> IsDigit(s[k])
    requires w == |s| || !IsDigit(s[w])
    requires e == w ==> !(w + 1 < |s| && s[w] == '.' && IsDigit(s[w + 1]))
    requires e != w ==> && s[w] == '.' && w + 1 < e
                        && (forall k :: w + 1 <= k < e ==> IsDigit(s[k]))
                        && (e == |s| || !IsDigit(s[e]))
    requires forall k :: e <= k < t ==> IsSpace(s[k])
    requires t == |s| || !IsSpace(s[t])
    requires t + |mark| > |s| || (miss < |mark| && s[t + miss] != mark[miss])
    ensures FirstMatchFrom(s, mark, i) == FirstMatchFrom(s, mark, i + 1)
  {
    GreedyReading(s, mark, i, w, e, t);
    if t + |mark| <= |s| {
      assert s[t..t + |mark|][miss] != mark[miss];
    }
  }

  /** Positions that do not start with a digit cannot start a match */
  lemma {:induction false} SkipNonDigits(s: string, mark: string, i: nat, j: nat)
    requires i <= j <= |s|
    requires forall k :: i <= k < j ==> !IsDigit(s[k])
    ensures FirstMatchFrom(s, mark, i) == FirstMatchFrom(s, mark, j)
    decreases j - i
  {
    if i < j {
      assert MatchAt(s, mark, i) == None;
      SkipNonDigits(s, mark, i + 1, j);
    }
  }

  function DigitValue(c: char): nat {
    if IsDigit(c) then c as int - '0' as int else 0
  }

  /** The integer the digits x[lo..hi] spell */
  function DigitsValue(x: string, lo: nat, hi: nat): nat
    requires lo <= hi <= |x|
    decreases hi
  {
    if hi == lo then 0 else DigitsValue(x, lo, hi - 1) * 10 + DigitValue(x[hi - 1])
  }

  function Pow10(n: nat): (r: nat)
    ensures r > 0
  {
    if n == 0 then 1 else 10 * Pow10(n - 1)
  }

  /** Position of the first '.' in x at or after i, or |x| */
  function DotIndex(x: string, i: nat): (p: nat)
    requires i <= |x|
    ensures i <= p <= |x|
    ensures forall k :: i <= k < p ==> x[k] != '.'
    ensures p < |x| ==> x[p] == '.'
    decreases |x| - i
  {
    if i == |x| || x[i] == '.' then i else DotIndex(x, i + 1)
  }

  /** `parseFloat` of a captured group, as an exact decimal: the digits before the
      dot, plus the digits after it scaled down by their count */
  function DecimalValue(x: string): (v: real)
    ensures v >= 0.0
    ensures AllDigits(x) ==> v == DigitsValue(x, 0, |x|) as real
  {
    var p := DotIndex(x, 0);
    var whole := DigitsValue(x, 0, p) as real;
    if p < |x| then whole + DigitsValue(x, p + 1, |x|) as real / Pow10(|x| - p - 1) as real
    else whole
  }

  /** Digits spell the same integer wherever they sit */
  lemma {:induction false} DigitsValueShift(x: string, lo: nat, hi: nat, y: string, lo': nat)
    requires lo <= hi <= |x| && lo' + (hi - lo) <= |y|
    requires forall k :: lo <= k < hi ==> x[k] == y[lo' + (k - lo)]
    ensures DigitsValue(x, lo, hi) == DigitsValue(y, lo', lo' + (hi - lo))
    decreases hi
  {
    if hi > lo {
      DigitsValueShift(x, lo, hi - 1, y, lo');
      assert x[hi - 1] == y[lo' + (hi - lo) - 1];
    }
  }

  /** The first dot of a.b, where a has no dot, is the one after a */
  lemma DotAfterWhole(a: string, b: string)
    requires AllDigits(a)
    ensures DotIndex(a + "." + b, 0) == |a|
  {
    var x := a + "." + b;
    assert x[|a|] == '.';
    assert forall k :: 0 <= k < |a| ==> x[k] == a[k];
  }

  /** A group a.b is read as the integer a spells plus the integer b spells,
      divided by 10 for every digit of b */
  lemma DecimalOfFraction(a: string, b: string)
    requires AllDigits(a)
    ensures DecimalValue(a + "." + b)
         == DigitsValue(a, 0, |a|) as real + DigitsValue(b, 0, |b|) as real / Pow10(|b|) as real
  {
    var x := a + "." + b;
    DotAfterWhole(a, b);
    assert x[..|a|] == a;
    assert x[|a| + 1..] == b;
    DigitsOfPrefix(x, |a|);
    DigitsOfSuffix(x, |a| + 1);
  }

  lemma DigitsOfPrefix(x: string, n: nat)
    requires n <= |x|
    ensures DigitsValue(x, 0, n) == DigitsValue(x[..n], 0, n)
  {
    DigitsValueShift(x, 0, n, x[..n], 0);
  }

  lemma DigitsOfSuffix(x: string, n: nat)
    requires n <= |x|
    ensures DigitsValue(x, n, |x|) == DigitsValue(x[n..], 0, |x| - n)
  {
    DigitsValueShift(x, n, |x|, x[n..], 0);
  }

  /** `parseHours`: the hours figure and the overtime figure of a status text */
  function ParseHours(status: string): (h: Hours)
    ensures h.overtime >= 0.0
    ensures forall i, j, t :: LeftmostAcceptance(Lower(status), OvertimeMark, i, j, t) ==>
              h.overtime == DecimalValue(Lower(status)[i..j])
    ensures forall i, j, t :: LeftmostAcceptance(Lower(status), HoursMark, i, j, t) ==>
              h.regular + h.overtime == DecimalValue(Lower(status)[i..j])
  {
    var text := Lower(status);
    MarksAreMarks();
    FirstMatchFindsLeftmost(text, OvertimeMark);
    FirstMatchFindsLeftmost(text, HoursMark);
    var ot := FirstMatch(text, OvertimeMark);
    var hrs := FirstMatch(text, HoursMark);
    var overtime := if ot.Some? then DecimalValue(ot.value.group) else 0.0;
    var regular :=
      if hrs.Some? && ot.None? then DecimalValue(hrs.value.group)
      else if hrs.Some? && ot.Some? then DecimalValue(hrs.value.group) - overtime
      else 0.0;
    Hours(regular, overtime)
  }

  /** Neither pattern matches: no hours at all */
  lemma ParseNeither(status: string)
    requires NoAcceptance(Lower(status), OvertimeMark)
    requires NoAcceptance(Lower(status), HoursMark)
    ensures ParseHours(status) == Hours(0.0, 0.0)
  {
    MarksAreMarks();
    FirstMatchNone(Lower(status), OvertimeMark);
    FirstMatchNone(Lower(status), HoursMark);
  }

  /** Only the hours pattern matches: its leftmost figure is all regular time */
  lemma ParseHoursOnly(status: string, i: nat, j: int, t: int)
    requires LeftmostAcceptance(Lower(status), HoursMark, i, j, t)
    requires NoAcceptance(Lower(status), OvertimeMark)
    ensures ParseHours(status) == Hours(DecimalValue(Lower(status)[i..j]), 0.0)
  {
    MarksAreMarks();
    FirstMatchNone(Lower(status), OvertimeMark);
    FirstMatchLeftmost(Lower(status), HoursMark, i, j, t);
  }

  /** Only the overtime pattern matches: its leftmost figure is overtime and there is no regular time */
  lemma ParseOvertimeOnly(status: string, i: nat, j: int, t: int)
    requires LeftmostAcceptance(Lower(status), OvertimeMark, i, j, t)
    requires NoAcceptance(Lower(status), HoursMark)
    ensures ParseHours(status) == Hours(0.0, DecimalValue(Lower(status)[i..j]))
  {
    MarksAreMarks();
    FirstMatchNone(Lower(status), HoursMark);
    FirstMatchLeftmost(Lower(status), OvertimeMark, i, j, t);
  }

  /** Both match: the hours figure is a total, and regular time is that total less
      overtime, with no clamping at zero */
  lemma ParseBoth(status: string, i: nat, j: int, t: int, i': nat, j': int, t': int)
    requires LeftmostAcceptance(Lower(status), HoursMark, i, j, t)
    requires LeftmostAcceptance(Lower(status), OvertimeMark, i', j', t')
    ensures ParseHours(status).regular
         == DecimalValue(Lower(status)[i..j]) - DecimalValue(Lower(status)[i'..j'])
    ensures ParseHours(status).overtime == DecimalValue(Lower(status)[i'..j'])
  {
    MarksAreMarks();
    FirstMatchLeftmost(Lower(status), HoursMark, i, j, t);
    FirstMatchLeftmost(Lower(status), OvertimeMark, i', j', t');
  }

  /** Matching ignores letter case */
  lemma ParseIgnoresCase(status: string)
    ensures ParseHours(status) == ParseHours(Lower(status))
  {
    LowerIdempotent(status);
  }
}

=== FILE: text.dfy ===
/**
 The character classes and string helpers the status rules rely on:
 JavaScript's `\d` and `\s` classes, `toLowerCase`, and `includes`.
 */
module Text {

  /** `\d`: the ASCII digits only */
  predicate IsDigit(c: char) {
    '0' <= c <= '9'
  }

  /** `\s`: the white-space and line-terminator characters of ECMAScript */
  predicate IsSpace(c: char) {
    || c == ' ' || c == '\t' || c == '\n' || c == '\U{000B}' || c == '\U{000C}' || c == '\r'
    || c == '\U{00A0}' || c == '\U{1680}' || ('\U{2000}' <= c <= '\U{200A}')
    || c == '\U{2028}' || c == '\U{2029}' || c == '\U{202F}' || c == '\U{205F}'
    || c == '\U{3000}' || c == '\U{FEFF}'
  }

  function LowerChar(c: char): char {
    if 'A' <= c <= 'Z' then (c as int - 'A' as int + 'a' as int) as char else c
  }

  /** `toLowerCase()`, on the letters the status rules can see */
  function Lower(s: string): (r: string)
    ensures |r| == |s|
    ensures forall i :: 0 <= i < |s| ==> r[i] == LowerChar(s[i])
    ensures forall i :: 0 <= i < |s| ==> !('A' <= r[i] <= 'Z')
  {
    if s == [] then [] else [LowerChar(s[0])] + Lower(s[1..])
  }

  /** Lower-casing twice is lower-casing once */
  lemma LowerIdempotent(s: string)
    ensures Lower(Lower(s)) == Lower(s)
  {
    assert forall i :: 0 <= i < |s| ==> Lower(Lower(s))[i] == Lower(s)[i];
  }

  predicate OccursAt(s: string, sub: string, i: int) {
    0 <= i && i + |sub| <= |s| && s[i..i + |sub|] == sub
  }

  /** `s.includes(sub)`, searching from position i on */
  function IncludesFrom(s: string, sub: string, i: nat): (b: bool)
    requires i <= |s|
    ensures b <==> exists k :: i <= k && OccursAt(s, sub, k)
    decreases |s| - i
  {
    if OccursAt(s, sub, i) then true
    else if i + |sub| >= |s| then false
    else IncludesFrom(s, sub, i + 1)
  }

  /** `s.includes(sub)`: sub occurs somewhere in s */
  function Includes(s: string, sub: string): (b: bool)
    ensures b <==> exists k :: OccursAt(s, sub, k)
  {
    IncludesFrom(s, sub, 0)
  }
}

=== FILE: wrappers.dfy ===
/** The absent-or-present value the status store returns for a day key. */
module Wrappers {

  datatype Option<+T> = None | Some(value: T)
}
